=== FILE: README.md ===
# Cascading API filters, searchable selector and line-numbered editor — a Dafny model

This project models the interactive core of a browser page for picking two API
definitions side by side. Each side has a cascading filter bar
(APIC version → environment → catalog → API name). The API name is picked with
a searchable combo-box. Two further pieces of the repository are modelled
even though this page does not use them. One is the line-numbered text editor
component; the page's own editors are plain textareas. The other is the
API-list query hook, whose query is gated on the three filters; the page
never calls it. React scheduling and the DOM are abstracted away. Every
component becomes an immutable record plus pure transition functions over an
event datatype. The parent's callbacks
(`onChange`, `onClear`) are returned as effects.

Some things are absent from the code, so the model has none of them:
- There is no diff of the two texts and no renderer for one.
- The Compare button has no click handler.
- There is no control that resets both sides.
- The list query hook is never called by the page. The API-name selector offers a fixed sample list of names.

Modules, one per source concern:

- `Wrappers`: `Option`, the reading of `undefined` / `null`.
- `JsText`: the string primitives the components use. These are `trim` (the full ECMAScript whitespace and line-terminator set), `toLowerCase`, `includes` and counting `'\n'`.
- `OptionTables`: the version/environment/catalog enumerations and lookup tables. The empty string `""` is an explicit `No…` constructor.
- `CascadingFilters`: one side's selection record, the cascading-reset reducer, option derivations, disabled predicates, and reachability.
- `ApicQuery`: the list-query hook's enablement gate, query key and request.
- `WrapIndex`: JavaScript's truncating `%` and the circular ArrowUp/ArrowDown index arithmetic.
- `SearchableDropdown`: the combo-box. It covers filtering, the selected-option lookup, every event handler, and the two React effects (label sync and active-index reset). The effects run after each render.
- `FilterBar`: one side wired together (three selects plus the API-name combo-box) and the page's two independent sides.
- `LineNumberedTextarea`: line counting, gutter labels and the controlled/uncontrolled text rule.

Integer arithmetic is unbounded. The only place the source's integer semantics
matter is `%` on the active index. That is written out as JavaScript's truncating
remainder (`WrapIndex.JsRem`).

## Model

| member | source | states |
|---|---|---|
| `JsText.Trim` | src/components/ui/SearchableDropdown.tsx:65 | Trimming never lengthens the text. What it removes is stated by `JsText.TrimFrames`. |
| `JsText.TrimFrames` | src/components/ui/SearchableDropdown.tsx:65 | The query's `trim()` returns a slice of the input framed by two all-whitespace runs. The slice neither starts nor ends with whitespace. |
| `JsText.LowerChar` | src/components/ui/SearchableDropdown.tsx:65 | An ASCII capital maps to its small letter (code point + 32). Every other character is unchanged, and the result is never an ASCII capital. |
| `JsText.ToLower` | src/components/ui/SearchableDropdown.tsx:65 | Lower-casing keeps the length. |
| `JsText.ToLowerIdempotent` | src/components/ui/SearchableDropdown.tsx:65 | A lower-cased text holds no ASCII capital, so lower-casing it again changes nothing. |
| `JsText.Includes` | src/components/ui/SearchableDropdown.tsx:68-72 | The empty needle is always found. A found needle is no longer than the haystack. An equally long needle is found iff it equals the haystack. |
| `JsText.IncludesIff` | src/components/ui/SearchableDropdown.tsx:68-72 | `includes` holds iff the needle occurs at some position of the haystack. |
| `JsText.Count` | src/components/ui/LineNumberedTextarea.tsx:39 | The count of a character is at most the text's length, and zero iff the character does not occur. |
| `JsText.CountAppend` | src/components/ui/LineNumberedTextarea.tsx:39 | The newline count of a concatenation is the sum of the counts. |
| `OptionTables.TablesCoverEveryChoice` | src/components/MainContent.tsx:10-38 | The tables are keyed by exactly the chosen versions and (version, environment) pairs. They list only chosen values, and every valid pair has a non-empty catalog list. |
| `CascadingFilters.Apply` | src/components/MainContent.tsx:89-103 | The event's own field takes the event's value. Fields above it keep their values. Fields below it are cleared: environment, catalog and API name after a version change; catalog and API name after an environment change; API name after a catalog change. |
| `CascadingFilters.CascadeRule` | src/components/MainContent.tsx:89-103 | Each mutator writes its own field, leaves every field above it unchanged and clears every field below it. Choosing an API name changes only `apiName`. |
| `CascadingFilters.EnvironmentOptions` | src/components/MainContent.tsx:55-58 | Environment options are empty iff no version is chosen. Otherwise they are the table entry [uat, staging, prod]. |
| `CascadingFilters.CatalogOptions` | src/components/MainContent.tsx:60-64 | Catalog options are empty when version or environment is unset. Otherwise they are the non-empty table entry [ubp, core]. |
| `CascadingFilters.DisabledIffNoOptions` | src/components/MainContent.tsx:131-172 | Environment, catalog and API-name controls are each disabled exactly when they have no options to offer. |
| `CascadingFilters.ApplyKeepsConsistent` | src/components/MainContent.tsx:89-103 | An event from an enabled control, carrying one of its options, keeps every chosen field among the options its selector offers. |
| `CascadingFilters.ReachableIsConsistent` | src/components/MainContent.tsx:89-103 | Every state reachable by enabled events is consistent and prefix-ordered. Environment set ⇒ version set; catalog set ⇒ environment set; API name set ⇒ all three set. |
| `CascadingFilters.ConsistentIsReachable` | src/components/MainContent.tsx:89-103 | Conversely, every consistent selection is reached from the empty one by some sequence of enabled events. |
| `ApicQuery.UseApic` | src/hooks/useApic.ts:13-22 | The query is enabled iff filters are present and version, environment and catalog are all present and non-empty. An absent filters object gives a disabled query. The key's scope is "products". |
| `ApicQuery.KeyInjective` | src/hooks/useApic.ts:18 | Two filter arguments share a query key iff their (version, environment, catalog) triples are equal. |
| `ApicQuery.FetchIgnoresFilters` | src/services/apic.service.ts:9-10 | Whatever the filters, the query requests the fixed address https://dummyjson.com/products. So two filter arguments issue the same request, and filters affect only key and enablement. |
| `ApicQuery.GateMatchesParentsChosen` | src/hooks/useApic.ts:14 | For a side's selection, the list-query gate coincides with `parentsChosen`, and the key carries the selection's triple. |
| `ApicQuery.EnabledExactlyAfterThirdChoice` | src/hooks/useApic.ts:14-20 | Choosing v5, then uat, then ubp leaves the query disabled after the first two choices. It is enabled after the third, keyed (v5, uat, ubp). |
| `WrapIndex.JsRemOdd` | src/components/ui/SearchableDropdown.tsx:132 | The modelled `%` truncates: negating the dividend negates the remainder. |
| `WrapIndex.Next` | src/components/ui/SearchableDropdown.tsx:132 | `(i + 1) % n` moves one place forward, wrapping from the last result to the first. It stays in [0, n) from any index in [-1, n). |
| `WrapIndex.Prev` | src/components/ui/SearchableDropdown.tsx:142 | `(i - 1 + n) % n` moves one place back, wrapping from the first result to the last. It stays in [0, n) from any index in [-1, n). |
| `WrapIndex.NextPrevInverse` | src/components/ui/SearchableDropdown.tsx:125-144 | ArrowUp's index step undoes ArrowDown's and vice versa. |
| `WrapIndex.NextFullCycle` | src/components/ui/SearchableDropdown.tsx:132 | `n` ArrowDown steps from a valid index return to it. |
| `WrapIndex.PrevFullCycle` | src/components/ui/SearchableDropdown.tsx:142 | `n` ArrowUp steps from a valid index return to it. |
| `SearchableDropdown.FindIndex` | src/components/ui/SearchableDropdown.tsx:42-45 | The selected option is the first option carrying the controlled value. There is none iff no option carries it. |
| `SearchableDropdown.SelectedIsTheOption` | src/components/ui/SearchableDropdown.tsx:42-45 | With distinct option values, an option is the one its own value selects, and the displayed label is its label. |
| `SearchableDropdown.KeepMatching` | src/components/ui/SearchableDropdown.tsx:67-72 | The kept list is never longer than the options. Order, membership and multiplicity are stated by `SearchableDropdown.KeepMatchingMembers`. |
| `SearchableDropdown.KeepMatchingMembers` | src/components/ui/SearchableDropdown.tsx:67-72 | The filtered list is an order-preserving sublist of the options. Each matching option occurs in it exactly as often as among the options; a non-matching one does not occur. |
| `SearchableDropdown.Filtered` | src/components/ui/SearchableDropdown.tsx:64-73 | An empty trimmed, lower-cased query returns the options unchanged. The result is never longer than the options. |
| `SearchableDropdown.FilteredMatches` | src/components/ui/SearchableDropdown.tsx:64-73 | A non-empty query yields an order-preserving sublist of the options. An option occurs in it exactly as often as among the options if it matches, and not at all otherwise. An option matches when its lower-cased label or value contains the query, or the caller's filter accepts it. |
| `SearchableDropdown.NoMatchNoResults` | src/components/ui/SearchableDropdown.tsx:64-73 | A query no option matches lists nothing. Clearing the text lists every option again. |
| `SearchableDropdown.QueryIgnoresPadding` | src/components/ui/SearchableDropdown.tsx:65 | Whitespace around the typed text does not change the results. |
| `SearchableDropdown.OnKeyDown` | src/components/ui/SearchableDropdown.tsx:121-195 | While disabled or composing a key changes nothing. Any reported value is an option's value or "". Reporting anything leaves the list closed. |
| `SearchableDropdown.HandleEvent` | src/components/ui/SearchableDropdown.tsx:101-311 | Over all interactions, a disabled selector reports nothing to its parent. It takes no typing or composition either, because its input is disabled, so its state can at most have its list closed. Reported values are "" or option values. The list is closed whenever something is reported. |
| `SearchableDropdown.CommitSelection` | src/components/ui/SearchableDropdown.tsx:101-117 | A parent that stores what it is told ends up with the option's value, or "" when clearing. The text becomes the option's label, or "". A clear is announced exactly when clearing. The list closes, and nothing else in the state changes. |
| `SearchableDropdown.CommitReportsOption` | src/components/ui/SearchableDropdown.tsx:101-117 | Committing an option reports its value; clearing reports "". Either way the list closes. |
| `SearchableDropdown.Settle` | src/components/ui/SearchableDropdown.tsx:76-79 | The index-reset effect changes only the highlight and leaves a closed list alone. A list that just opened, or whose result count changed, highlights exactly its first result, or -1 when there are no results. That highlight is valid. Otherwise the effect does not run and the highlight is kept. |
| `SearchableDropdown.Sync` | src/components/ui/SearchableDropdown.tsx:58-60 | The label-sync effect changes only the text, and only when the selected option changed. The text then becomes the new option's label, or "" when none is selected. |
| `SearchableDropdown.ClearVisibleIffLabelShown` | src/components/ui/SearchableDropdown.tsx:262 | With distinct option values: the clear button shows iff the selector is enabled, the value is non-empty and the text equals the label of the option carrying the value. |
| `SearchableDropdown.ClearVisibleForUnknownValue` | src/components/ui/SearchableDropdown.tsx:262 | For a value no option carries, including any value over an empty option list, the clear button shows iff the selector is enabled, the value is non-empty and the text is empty. |
| `SearchableDropdown.MountIsValid` | src/components/ui/SearchableDropdown.tsx:48-50 | The first render starts closed and satisfies the active-index invariant. |
| `SearchableDropdown.StepKeepsValid` | src/components/ui/SearchableDropdown.tsx:76-79 | After any event and its effects, an open list highlights a result in [0, n), or -1 exactly when n = 0. |
| `SearchableDropdown.RepropsKeepsValid` | src/components/ui/SearchableDropdown.tsx:58-79 | New props from the parent (value, options, disabled) keep the active-index invariant. |
| `SearchableDropdown.RunKeepsValid` | src/components/ui/SearchableDropdown.tsx:76-79 | Every sequence of events keeps the active-index invariant. |
| `SearchableDropdown.KeyKeepsIndexValid` | src/components/ui/SearchableDropdown.tsx:125-158 | A key that leaves the list open keeps the text and a valid highlight. |
| `SearchableDropdown.KeysInertWhileDisabledOrComposing` | src/components/ui/SearchableDropdown.tsx:122 | While disabled or mid-composition no key changes anything. |
| `SearchableDropdown.TypingOpens` | src/components/ui/SearchableDropdown.tsx:240-251 | A disabled input ignores typing entirely. In an enabled one, typing sets the text and opens the list and reports nothing. If the list was closed or its result count changed, the highlight goes to 0, or -1 when there are no results. Otherwise the highlight is kept. |
| `SearchableDropdown.TypingAwayHidesClear` | src/components/ui/SearchableDropdown.tsx:262 | Text that no longer equals the selected option's label hides the clear button. |
| `SearchableDropdown.ArrowOpensClosedList` | src/components/ui/SearchableDropdown.tsx:125-144 | On a closed list ArrowDown/ArrowUp only open it and leave the index. The reset effect then moves it to 0, or -1 when there are no results. |
| `SearchableDropdown.ArrowMovesHighlight` | src/components/ui/SearchableDropdown.tsx:125-144 | On an open list with n > 0 results the arrows set the index to (i+1) mod n and (i-1+n) mod n. Nothing else changes, and validity is kept. |
| `SearchableDropdown.ArrowsUndoEachOther` | src/components/ui/SearchableDropdown.tsx:125-144 | ArrowUp right after ArrowDown, or the reverse, restores the whole component. |
| `SearchableDropdown.ArrowDownPresses` | src/components/ui/SearchableDropdown.tsx:125-134 | k ArrowDown presses move the highlight k wrapped steps forward and change nothing else. |
| `SearchableDropdown.ArrowUpPresses` | src/components/ui/SearchableDropdown.tsx:135-144 | k ArrowUp presses move the highlight k wrapped steps back and change nothing else. |
| `SearchableDropdown.ArrowCycle` | src/components/ui/SearchableDropdown.tsx:125-144 | n presses of either arrow on an open list of n results bring the component back to where it was. |
| `SearchableDropdown.HomeEndJump` | src/components/ui/SearchableDropdown.tsx:145-158 | Home/End set the index to 0 / n-1 on an open, non-empty list. Otherwise they change nothing. |
| `SearchableDropdown.EnterTabCommit` | src/components/ui/SearchableDropdown.tsx:159-172 | On an open list with 0 ≤ activeIdx < n, Enter/Tab report filtered[activeIdx]'s value, show its label and close. Otherwise nothing changes. |
| `SearchableDropdown.CommitSelectsOption` | src/components/ui/SearchableDropdown.tsx:101-117 | Once the parent stores the committed value, that option is the selected one and its label is shown. With distinct values, the clear button shows iff the value is non-empty. |
| `SearchableDropdown.EscapeBehaviour` | src/components/ui/SearchableDropdown.tsx:173-185 | Escape on an open list only closes it. On a closed list with text it clears the text and reports "" and a clear. On a closed list with no text it changes nothing. |
| `SearchableDropdown.BackspaceClears` | src/components/ui/SearchableDropdown.tsx:186-192 | With empty text and a value set, Backspace reports "" and a clear and closes the list. In every other case it changes nothing. |
| `SearchableDropdown.ClearButtonClears` | src/components/ui/SearchableDropdown.tsx:262-270 | A visible clear button clears value and text and closes the list, after which it is hidden. A hidden one does nothing. |
| `SearchableDropdown.MountShowsClearIffSelected` | src/components/ui/SearchableDropdown.tsx:262 | On first render the clear button shows iff the selector is enabled and a value is set. |
| `SearchableDropdown.FocusOpens` | src/components/ui/SearchableDropdown.tsx:201-203 | Focus opens an enabled list, and the highlight then resets. A disabled selector is unaffected. |
| `LineNumberedTextarea.LineCount` | src/components/ui/LineNumberedTextarea.tsx:37-40 | The line count is at least 1. |
| `LineNumberedTextarea.LineCountCountsLines` | src/components/ui/LineNumberedTextarea.tsx:37-40 | The line count (1 + number of '\n') equals the number of newline-separated lines of the text. |
| `LineNumberedTextarea.JoinSplit` | src/components/ui/LineNumberedTextarea.tsx:39 | Joining the lines of a text with '\n' gives the text back. |
| `LineNumberedTextarea.SplitJoin` | src/components/ui/LineNumberedTextarea.tsx:39 | Splitting newline-free lines joined with '\n' gives the lines back. |
| `LineNumberedTextarea.EmptyTextHasOneLine` | src/components/ui/LineNumberedTextarea.tsx:38-39 | Empty text shows one line number. |
| `LineNumberedTextarea.LineCountAppend` | src/components/ui/LineNumberedTextarea.tsx:39 | Appending "\n" adds exactly one line. Appending newline-free text adds none. In general LineCount(a+b) = LineCount(a) + LineCount(b) - 1. |
| `LineNumberedTextarea.Gutter` | src/components/ui/LineNumberedTextarea.tsx:72-76 | The gutter for n lines has n labels, the i-th being i+1. |
| `LineNumberedTextarea.GutterNumbersLines` | src/components/ui/LineNumberedTextarea.tsx:72-76 | The gutter has one label per line. The labels are consecutive, from 1 up to the last line. |
| `LineNumberedTextarea.Resync` | src/components/ui/LineNumberedTextarea.tsx:27-29 | The sync effect never changes the displayed text. In controlled mode it sets the own copy to the value; uncontrolled, it is a no-op. |
| `LineNumberedTextarea.Mount` | src/components/ui/LineNumberedTextarea.tsx:23-31 | The displayed text starts as `value`, else `defaultValue`, else "". A controlled editor starts in sync. |
| `LineNumberedTextarea.HandleChange` | src/components/ui/LineNumberedTextarea.tsx:49-53 | A change always forwards the new text. Only an uncontrolled editor adopts it; a controlled one is unchanged. Sync is kept. |
| `LineNumberedTextarea.Rerender` | src/components/ui/LineNumberedTextarea.tsx:27-29 | After a re-render with any value prop, a controlled editor's own copy equals the prop. |
| `LineNumberedTextarea.EchoingParentShowsTypedText` | src/components/ui/LineNumberedTextarea.tsx:49-53 | A controlled editor whose parent stores the forwarded text displays the typed text and holds it as its own copy. |
| `LineNumberedTextarea.ReleasingControlKeepsText` | src/components/ui/LineNumberedTextarea.tsx:23-31 | An in-sync editor whose value prop becomes undefined keeps displaying the same text. |
| `FilterBar.NameOptions` | src/components/MainContent.tsx:85 | One option per name. An option is offered iff its value is one of the names and its label equals its value. |
| `FilterBar.StartIsValid` | src/components/MainContent.tsx:48-51 | A fresh side (all filters empty, selector mounted) is valid. |
| `FilterBar.SideStep` | src/components/MainContent.tsx:89-172 | A selector event can change only the API name. While the selector is disabled it changes no filter, and when the disabled selector's list is also closed it changes nothing at all. A select event on a disabled control, or with a value not among its options, changes nothing. Otherwise it applies the cascade reducer `CascadingFilters.Apply`: the select's own field takes the value, the fields below it are cleared, and the API name is cleared. |
| `FilterBar.PickerKeepsConsistent` | src/components/MainContent.tsx:161-172 | Whatever the API-name selector reports through `setApiName` is "" or one of the offered names, so the filters stay consistent. |
| `FilterBar.SideStepKeepsValid` | src/components/MainContent.tsx:88-172 | Every select or selector event keeps one side's filters consistent and its selector's highlight valid. |
| `FilterBar.EverySideStateValid` | src/components/MainContent.tsx:88-172 | Every state a side reaches through user events is consistent and prefix-ordered, with a valid highlight. |
| `FilterBar.FilterChangeClearsPicker` | src/components/MainContent.tsx:89-103 | An enabled filter change clears the API name. The selector's text is cleared if a name was selected; uncommitted typed text is kept. |
| `FilterBar.SidesIndependent` | src/components/MainContent.tsx:192-198 | After any interleaving of events on the two sides, each side is exactly what its own events alone, in order, would make of it. |
| `FilterBar.EveryPageStateValid` | src/components/MainContent.tsx:192-198 | Starting from a fresh page, both sides stay consistent with a valid highlight, whatever the user does on either side. |

## Left out

- Structural JSON diff, dual-pane rendering and the Compare action: the source has none. The Compare button has no handler, and the page's editors are plain uncontrolled textareas.
- Network layer: the fetch clients, HTTP errors, and react-query's caching, cancellation and `staleTime`. They are I/O or a foreign library. The request is modelled only by its fixed address (`ApicQuery.Fetch`).
- The detail hook (`useApiDetail`): its only logic is `enabled: !!id`, a thin wrapper around the same foreign library.
- The list hook is not called by the page: the page's API names come from a hard-coded sample list. `FilterBar` takes that list as a parameter (`names`). `ApicQuery.GateMatchesParentsChosen` relates the hook's gate to the page's `parentsChosen` without claiming they are wired together.
- `useDeferredValue`: the lag is a scheduling effect. Filtering is modelled over the current text.
- The debounce hook: it is timer-based.
- DOM effects: `scrollIntoView`, `focus`/`blur` calls and `requestAnimationFrame` are left out. So are aria ids and scroll syncing of the gutter. Escape's trailing blur only closes the list, which every Escape branch already does. A blur or outside pointer-down is modelled only as closing the list.
- JsText.ToLower: lower-cases ASCII letters only. Full Unicode case mapping is not modelled. Its own contract states only the length. The per-character mapping is `JsText.LowerChar`'s, and `JsText.ToLowerIdempotent` states the result.
- JsText.Trim: its own contract is only a length bound. The framing by whitespace is stated by the lemma `JsText.TrimFrames`, so that the many formulas that mention the query do not carry it.
- SearchableDropdown.KeepMatching: its own contract is only a length bound. Order, membership and multiplicity are stated by the lemma `SearchableDropdown.KeepMatchingMembers`, for the same reason.
- Fetch failures (`!res.ok` throwing) and the response body are not modelled, for the same I/O reason.
- `filterFn` is an uninterpreted predicate. `renderOption` is presentation and is left out.
- SearchableDropdown.Sync: compares the selected option by value, while React compares it by object identity. If the parent passes new option objects equal to the old ones, the source re-syncs the text. The model does not.
- Persisted side-navigation state (`localStorage`), header scroll tracking, footer, layout, styling and the pass-through `<select>` wrapper are presentation. The wrapper is modelled only as "an enabled select reports one of its options".
- Native selects fire `onChange` only when the value changes. The model also lets an enabled select re-report the current value (`CascadingFilters.Enabled`). This only adds behaviours.
- A global "reset all" signal and a rule for when Compare is enabled: the code has neither, so neither is modelled.

=== FILE: apic_query.dfy ===
/**
 * The API-list query hook: which cache key a filter triple maps to and when
 * the query may run. The fetch itself is an external collaborator.
 */
module ApicQuery {
  import opened Wrappers
  import opened OptionTables
  import CascadingFilters

  /** The hook's optional argument; each field may itself be absent. */
  datatype Filters = Filters(version: Option<Version>, environment: Option<Environment>, catalog: Option<Catalog>)

  /** The query key ["products", version, environment, catalog]; an absent part is `undefined`. */
  datatype QueryKey = QueryKey(scope: string, version: Option<Version>, environment: Option<Environment>, catalog: Option<Catalog>)

  /** The request the query function issues: a GET of the product list at `url`. */
  datatype Fetch = FetchProductList(url: string)

  /** The one address the API-list fetcher requests. */
  const ProductsUrl: string := "https://dummyjson.com/products"

  datatype ListQuery = ListQuery(key: QueryKey, fetch: Fetch, enabled: bool)

  /** A part of the filters counts as chosen when it is present and non-empty. */
  predicate Truthy<T>(part: Option<T>, chosen: T -> bool) {
    part.Some? && chosen(part.value)
  }

  /** `allChosen`: all three filters present and non-empty. */
  predicate AllChosen(f: Option<Filters>) {
    && f.Some?
    && Truthy(f.value.version, (v: Version) => v.Chosen())
    && Truthy(f.value.environment, (e: Environment) => e.Chosen())
    && Truthy(f.value.catalog, (c: Catalog) => c.Chosen())
  }

  /** The filter triple as it reaches the key; an absent filters object reads as three absent parts. */
  function Triple(f: Option<Filters>): (Option<Version>, Option<Environment>, Option<Catalog>) {
    match f
    case None => (None, None, None)
    case Some(x) => (x.version, x.environment, x.catalog)
  }

  /** What `useApic(filters)` asks the query cache for. */
  function UseApic(f: Option<Filters>): (q: ListQuery)
    ensures q.enabled <==> f.Some? && f.value.version.Some? && f.value.version.value.Chosen()
                           && f.value.environment.Some? && f.value.environment.value.Chosen()
                           && f.value.catalog.Some? && f.value.catalog.value.Chosen()
    ensures f.None? ==> !q.enabled
    ensures q.key.scope == "products"
  {
    var t := Triple(f);
    ListQuery(QueryKey("products", t.0, t.1, t.2), FetchProductList(ProductsUrl), AllChosen(f))
  }

  /** Two filter arguments share a cache entry exactly when their triples agree. */
  lemma KeyInjective(f: Option<Filters>, g: Option<Filters>)
    ensures UseApic(f).key == UseApic(g).key <==> Triple(f) == Triple(g)
  {
  }

  /**
   * The filters steer only the key and the gate: whatever they are, the query
   * requests the fixed product-list address, so two filter arguments issue the
   * same request.
   */
  lemma FetchIgnoresFilters(f: Option<Filters>, g: Option<Filters>)
    ensures UseApic(f).fetch == FetchProductList(ProductsUrl)
    ensures UseApic(f).fetch == UseApic(g).fetch
  {
  }

  /** The filters one side of the page would pass: its three selections. */
  function FiltersOf(s: CascadingFilters.Selection): Filters {
    Filters(Some(s.version), Some(s.environment), Some(s.catalog))
  }

  /** The list query's gate and the API-name selector's `parentsChosen` agree. */
  lemma GateMatchesParentsChosen(s: CascadingFilters.Selection)
    ensures UseApic(Some(FiltersOf(s))).enabled <==> CascadingFilters.ParentsChosen(s)
    ensures UseApic(Some(FiltersOf(s))).key == QueryKey("products", Some(s.version), Some(s.environment), Some(s.catalog))
  {
  }

  /**
   * Choosing v5, then uat, then ubp: the query is disabled after each of the
   * first two choices and enabled after the third, with key (v5, uat, ubp).
   */
  lemma EnabledExactlyAfterThirdChoice()
    ensures var s1 := CascadingFilters.Apply(CascadingFilters.Initial, CascadingFilters.ChangeVersion(V5));
            var s2 := CascadingFilters.Apply(s1, CascadingFilters.ChangeEnvironment(Uat));
            var s3 := CascadingFilters.Apply(s2, CascadingFilters.ChangeCatalog(Ubp));
            && !UseApic(Some(FiltersOf(CascadingFilters.Initial))).enabled
            && !UseApic(Some(FiltersOf(s1))).enabled
            && !UseApic(Some(FiltersOf(s2))).enabled
            && UseApic(Some(FiltersOf(s3))).enabled
            && UseApic(Some(FiltersOf(s3))).key == QueryKey("products", Some(V5), Some(Uat), Some(Ubp))
  {
  }
}

=== FILE: cascading_filters.dfy ===
/**
 * One side of the comparison page: the cascading filter bar
 * version -> environment -> catalog -> API name. Every mutator sets its own
 * field and clears every field below it; every dependent selector is disabled
 * and offers nothing until its ancestors are chosen.
 */
module CascadingFilters {
  import opened OptionTables

  datatype Selection = Selection(version: Version, environment: Environment, catalog: Catalog, apiName: string)

  /** Every field starts empty. */
  const Initial: Selection := Selection(NoVersion, NoEnvironment, NoCatalog, "")

  /** The four mutators of the filter bar. */
  datatype FilterEvent =
    | ChangeVersion(v: Version)
    | ChangeEnvironment(e: Environment)
    | ChangeCatalog(c: Catalog)
    | ChooseApiName(name: string)

  /**
   * The cascading-reset reducer: the event's own field takes its value, the
   * fields above it are kept and the fields below it are cleared.
   */
  function Apply(s: Selection, ev: FilterEvent): (r: Selection)
    ensures Holds(r, ev)
    ensures Depth(ev) > 0 ==> r.version == s.version
    ensures Depth(ev) > 1 ==> r.environment == s.environment
    ensures Depth(ev) > 2 ==> r.catalog == s.catalog
    ensures Depth(ev) < 1 ==> r.environment == NoEnvironment
    ensures Depth(ev) < 2 ==> r.catalog == NoCatalog
    ensures Depth(ev) < 3 ==> r.apiName == ""
  {
    match ev
    case ChangeVersion(v) => Selection(v, NoEnvironment, NoCatalog, "")
    case ChangeEnvironment(e) => s.(environment := e, catalog := NoCatalog, apiName := "")
    case ChangeCatalog(c) => s.(catalog := c, apiName := "")
    case ChooseApiName(n) => s.(apiName := n)
  }

  /* ---------- the chain as positions 0..3 ---------- */

  /** Position in the chain of the field an event writes. */
  function Depth(ev: FilterEvent): nat {
    match ev
    case ChangeVersion(_) => 0
    case ChangeEnvironment(_) => 1
    case ChangeCatalog(_) => 2
    case ChooseApiName(_) => 3
  }

  /** Whether the field at position `k` holds a choice. */
  predicate IsSetAt(s: Selection, k: nat) {
    if k == 0 then s.version.Chosen()
    else if k == 1 then s.environment.Chosen()
    else if k == 2 then s.catalog.Chosen()
    else s.apiName != ""
  }

  /** Whether `s` and `t` agree on the field at position `k`. */
  predicate SameAt(s: Selection, t: Selection, k: nat) {
    if k == 0 then s.version == t.version
    else if k == 1 then s.environment == t.environment
    else if k == 2 then s.catalog == t.catalog
    else s.apiName == t.apiName
  }

  /** The field an event writes now holds the event's value. */
  predicate Holds(s: Selection, ev: FilterEvent) {
    match ev
    case ChangeVersion(v) => s.version == v
    case ChangeEnvironment(e) => s.environment == e
    case ChangeCatalog(c) => s.catalog == c
    case ChooseApiName(n) => s.apiName == n
  }

  /**
   * The cascade rule: an event writes its own field, leaves every field above
   * it as it was and clears every field below it.
   */
  lemma CascadeRule(s: Selection, ev: FilterEvent)
    ensures Holds(Apply(s, ev), ev)
    ensures forall k: nat :: k < Depth(ev) ==> SameAt(s, Apply(s, ev), k)
    ensures forall k: nat :: Depth(ev) < k <= 3 ==> !IsSetAt(Apply(s, ev), k)
  {
  }

  /* ---------- option derivations and enablement ---------- */

  /** The environment selector's options: nothing until a version is chosen. */
  function EnvironmentOptions(v: Version): (r: seq<Environment>)
    ensures r == [] <==> !v.Chosen()
    ensures v.Chosen() ==> r == [Uat, Staging, Prod]
  {
    if !v.Chosen() then [] else EnvironmentsByVersion[v]
  }

  /** The catalog selector's options: nothing until version and environment are chosen. */
  function CatalogOptions(v: Version, e: Environment): (r: seq<Catalog>)
    ensures !v.Chosen() || !e.Chosen() ==> r == []
    ensures v.Chosen() && e.Chosen() ==> r == [Ubp, Core]
    ensures forall c :: c in r ==> c.Chosen()
  {
    if !v.Chosen() || !e.Chosen() then []
    else if v in CatalogsByVersionEnv && e in CatalogsByVersionEnv[v] then CatalogsByVersionEnv[v][e]
    else []
  }

  predicate ParentsChosen(s: Selection) {
    s.version.Chosen() && s.environment.Chosen() && s.catalog.Chosen()
  }

  predicate EnvironmentDisabled(s: Selection) {
    !s.version.Chosen()
  }

  predicate CatalogDisabled(s: Selection) {
    !s.version.Chosen() || !s.environment.Chosen()
  }

  predicate ApiNameDisabled(s: Selection) {
    !ParentsChosen(s)
  }

  /** The API-name selector's options: the list of names once the three parents are chosen. */
  function ApiNameOptions(s: Selection, names: seq<string>): seq<string> {
    if ParentsChosen(s) then names else []
  }

  /** A control is disabled exactly when it has no options to offer. */
  lemma DisabledIffNoOptions(s: Selection, names: seq<string>)
    requires names != []
    ensures EnvironmentDisabled(s) <==> EnvironmentOptions(s.version) == []
    ensures CatalogDisabled(s) <==> CatalogOptions(s.version, s.environment) == []
    ensures ApiNameDisabled(s) <==> ApiNameOptions(s, names) == []
  {
  }

  /* ---------- reachable states ---------- */

  /**
   * An event the page can deliver: its control is enabled and the value is
   * one the control offers (a native select only reports its own options; the
   * API-name selector reports an option's value or the empty string).
   */
  predicate Enabled(s: Selection, names: seq<string>, ev: FilterEvent) {
    match ev
    case ChangeVersion(v) => v in VersionOptions
    case ChangeEnvironment(e) => !EnvironmentDisabled(s) && e in EnvironmentOptions(s.version)
    case ChangeCatalog(c) => !CatalogDisabled(s) && c in CatalogOptions(s.version, s.environment)
    case ChooseApiName(n) => !ApiNameDisabled(s) && (n == "" || n in ApiNameOptions(s, names))
  }

  /** Each chosen field has its ancestors chosen. */
  predicate PrefixOrdered(s: Selection) {
    && (s.environment.Chosen() ==> s.version.Chosen())
    && (s.catalog.Chosen() ==> s.environment.Chosen())
    && (s.apiName != "" ==> ParentsChosen(s))
  }

  /** Each chosen field is one of the options its selector offers in this state. */
  predicate Consistent(s: Selection, names: seq<string>) {
    && (s.environment.Chosen() ==> s.environment in EnvironmentOptions(s.version))
    && (s.catalog.Chosen() ==> s.catalog in CatalogOptions(s.version, s.environment))
    && (s.apiName != "" ==> s.apiName in ApiNameOptions(s, names))
  }

  lemma ConsistentIsPrefixOrdered(s: Selection, names: seq<string>)
    requires Consistent(s, names)
    ensures PrefixOrdered(s)
  {
  }

  /** One enabled event keeps the selection consistent. */
  lemma ApplyKeepsConsistent(s: Selection, names: seq<string>, ev: FilterEvent)
    requires Consistent(s, names) && Enabled(s, names, ev)
    ensures Consistent(Apply(s, ev), names)
  {
  }

  function ApplyAll(s: Selection, evs: seq<FilterEvent>): Selection
    decreases |evs|
  {
    if evs == [] then s else ApplyAll(Apply(s, evs[0]), evs[1..])
  }

  /** Every event of the sequence is enabled in the state it reaches. */
  predicate AllEnabled(s: Selection, names: seq<string>, evs: seq<FilterEvent>)
    decreases |evs|
  {
    evs == [] || (Enabled(s, names, evs[0]) && AllEnabled(Apply(s, evs[0]), names, evs[1..]))
  }

  /** Every state reachable from the initial one through enabled events is consistent, hence prefix-ordered. */
  lemma {:induction false} ReachableIsConsistent(s: Selection, names: seq<string>, evs: seq<FilterEvent>)
    requires Consistent(s, names) && AllEnabled(s, names, evs)
    ensures Consistent(ApplyAll(s, evs), names)
    ensures PrefixOrdered(ApplyAll(s, evs))
    decreases |evs|
  {
    if evs == [] {
    } else {
      ApplyKeepsConsistent(s, names, evs[0]);
      ReachableIsConsistent(Apply(s, evs[0]), names, evs[1..]);
    }
  }

  lemma {:induction false} ApplyAllAppend(s: Selection, names: seq<string>, a: seq<FilterEvent>, b: seq<FilterEvent>)
    ensures ApplyAll(s, a + b) == ApplyAll(ApplyAll(s, a), b)
    ensures AllEnabled(s, names, a + b) <==> AllEnabled(s, names, a) && AllEnabled(ApplyAll(s, a), names, b)
    decreases |a|
  {
    if a == [] {
      assert a + b == b;
    } else {
      assert (a + b)[0] == a[0];
      assert (a + b)[1..] == a[1..] + b;
      ApplyAllAppend(Apply(s, a[0]), names, a[1..], b);
    }
  }

  lemma ApplyOne(s: Selection, names: seq<string>, ev: FilterEvent)
    ensures ApplyAll(s, [ev]) == Apply(s, ev)
    ensures AllEnabled(s, names, [ev]) <==> Enabled(s, names, ev)
  {
    assert [ev][1..] == [];
  }

  /** Conversely, every consistent selection is reached from the initial one by enabled events. */
  lemma ConsistentIsReachable(s: Selection, names: seq<string>) returns (evs: seq<FilterEvent>)
    requires Consistent(s, names)
    ensures AllEnabled(Initial, names, evs) && ApplyAll(Initial, evs) == s
  {
    evs := [];
    var cur := Initial;
    if s.version.Chosen() {
      ApplyOne(cur, names, ChangeVersion(s.version));
      ApplyAllAppend(Initial, names, evs, [ChangeVersion(s.version)]);
      evs, cur := evs + [ChangeVersion(s.version)], Apply(cur, ChangeVersion(s.version));
    }
    assert cur == Selection(s.version, NoEnvironment, NoCatalog, "");
    if s.environment.Chosen() {
      ApplyOne(cur, names, ChangeEnvironment(s.environment));
      ApplyAllAppend(Initial, names, evs, [ChangeEnvironment(s.environment)]);
      evs, cur := evs + [ChangeEnvironment(s.environment)], Apply(cur, ChangeEnvironment(s.environment));
    }
    assert cur == Selection(s.version, s.environment, NoCatalog, "");
    if s.catalog.Chosen() {
      ApplyOne(cur, names, ChangeCatalog(s.catalog));
      ApplyAllAppend(Initial, names, evs, [ChangeCatalog(s.catalog)]);
      evs, cur := evs + [ChangeCatalog(s.catalog)], Apply(cur, ChangeCatalog(s.catalog));
    }
    assert cur == s.(apiName := "");
    if s.apiName != "" {
      ApplyOne(cur, names, ChooseApiName(s.apiName));
      ApplyAllAppend(Initial, names, evs, [ChooseApiName(s.apiName)]);
      evs, cur := evs + [ChooseApiName(s.apiName)], Apply(cur, ChooseApiName(s.apiName));
    }
  }
}

=== FILE: filter_bar.dfy ===
/**
 * One side of the page as a whole: the three native selects, the API-name
 * combo-box wired to `setApiName`, and the page holding two independent sides.
 * The list of API names is a parameter.
 */
module FilterBar {
  import opened Wrappers
  import opened OptionTables
  import CF = CascadingFilters
  import SD = SearchableDropdown

  /**
   * Each API name is offered with itself as value and label: one option per
   * name, and an option is offered exactly when its value is a name and its
   * label is that same name.
   */
  function NameOptions(names: seq<string>): (r: seq<SD.Opt>)
    ensures |r| == |names|
    ensures forall o: SD.Opt :: o in r <==> o.value in names && o.caption == o.value
  {
    var r := seq(|names|, i requires 0 <= i < |names| => SD.Opt(names[i], names[i]));
    assert forall o: SD.Opt :: o.value in names && o.caption == o.value ==> o in r by {
      forall o: SD.Opt | o.value in names && o.caption == o.value
        ensures o in r
      {
        var i :| 0 <= i < |names| && names[i] == o.value;
        assert r[i] == o;
      }
    }
    r
  }

  /** What the side passes to its API-name selector. */
  function PickerProps(s: CF.Selection, names: seq<string>): SD.Props {
    SD.Props(s.apiName, NameOptions(CF.ApiNameOptions(s, names)), CF.ApiNameDisabled(s), None)
  }

  datatype Side = Side(selection: CF.Selection, picker: SD.State)

  /** A selection on one of the three native selects, or an interaction with the API-name selector. */
  datatype SideEvent =
    | PickVersion(v: Version)
    | PickEnvironment(e: Environment)
    | PickCatalog(c: Catalog)
    | Picker(ev: SD.Event)

  function FilterEventOf(ev: SideEvent): CF.FilterEvent
    requires !ev.Picker?
  {
    match ev
    case PickVersion(v) => CF.ChangeVersion(v)
    case PickEnvironment(e) => CF.ChangeEnvironment(e)
    case PickCatalog(c) => CF.ChangeCatalog(c)
  }

  function Start(names: seq<string>): Side {
    Side(CF.Initial, SD.Mount(PickerProps(CF.Initial, names)).state)
  }

  /**
   * One event on one side. A native select only reports an enabled control's
   * own options, so anything else does nothing, and an enabled select runs the
   * cascade reducer; the API-name selector's reported value becomes `apiName`.
   */
  function SideStep(names: seq<string>, side: Side, ev: SideEvent): (r: Side)
    ensures ev.Picker? ==> r.selection == side.selection.(apiName := r.selection.apiName)
    ensures ev.Picker? && CF.ApiNameDisabled(side.selection) ==> r.selection == side.selection
    ensures ev.Picker? && CF.ApiNameDisabled(side.selection) && !side.picker.open ==> r == side
    ensures !ev.Picker? && !CF.Enabled(side.selection, names, FilterEventOf(ev)) ==> r == side
    ensures !ev.Picker? && CF.Enabled(side.selection, names, FilterEventOf(ev)) ==> r.selection == CF.Apply(side.selection, FilterEventOf(ev))
    ensures !ev.Picker? && CF.Enabled(side.selection, names, FilterEventOf(ev)) ==> r.selection.apiName == ""
  {
    var p := PickerProps(side.selection, names);
    match ev
    case Picker(e) =>
      var c1 := SD.Step(SD.Combo(p, side.picker), e);
      Side(CF.Apply(side.selection, CF.ChooseApiName(c1.props.value)), c1.state)
    case _ =>
      var fe := FilterEventOf(ev);
      if CF.Enabled(side.selection, names, fe) then
        var s1 := CF.Apply(side.selection, fe);
        Side(s1, SD.Reprops(SD.Combo(p, side.picker), PickerProps(s1, names)).state)
      else side
  }

  /** The filters are consistent and the API-name selector's highlight is valid. */
  predicate SideValid(names: seq<string>, side: Side) {
    CF.Consistent(side.selection, names) && SD.ActiveInRange(PickerProps(side.selection, names), side.picker)
  }

  lemma StartIsValid(names: seq<string>)
    ensures SideValid(names, Start(names))
  {
    SD.MountIsValid(PickerProps(CF.Initial, names));
  }

  /** The parent stores either what it had or one of the values it was told. */
  lemma {:induction false} FollowEmitsIsReported(v: string, effects: seq<SD.Effect>)
    ensures SD.FollowEmits(v, effects) == v || SD.EmitChange(SD.FollowEmits(v, effects)) in effects
    decreases |effects|
  {
    if effects != [] {
      var v1 := if effects[0].EmitChange? then effects[0].value else v;
      FollowEmitsIsReported(v1, effects[1..]);
    }
  }

  /** Whatever the API-name selector reports keeps the filters consistent. */
  lemma PickerKeepsConsistent(names: seq<string>, side: Side, e: SD.Event)
    requires CF.Consistent(side.selection, names)
    ensures var p := PickerProps(side.selection, names);
            var c1 := SD.Step(SD.Combo(p, side.picker), e);
            CF.Consistent(CF.Apply(side.selection, CF.ChooseApiName(c1.props.value)), names)
  {
    var p := PickerProps(side.selection, names);
    var r := SD.HandleEvent(p, side.picker, e);
    var v := SD.FollowEmits(p.value, r.effects);
    FollowEmitsIsReported(p.value, r.effects);
    if v != side.selection.apiName && v != "" {
      assert SD.EmitChange(v) in r.effects;
      var o :| o in p.options && o.value == v;
    }
  }

  /** Every event keeps a side valid. */
  lemma SideStepKeepsValid(names: seq<string>, side: Side, ev: SideEvent)
    requires SideValid(names, side)
    ensures SideValid(names, SideStep(names, side, ev))
  {
    var p := PickerProps(side.selection, names);
    match ev
    case Picker(e) =>
      PickerKeepsConsistent(names, side, e);
      var c1 := SD.Step(SD.Combo(p, side.picker), e);
      SD.StepKeepsValid(SD.Combo(p, side.picker), e);
      assert c1.props == PickerProps(CF.Apply(side.selection, CF.ChooseApiName(c1.props.value)), names);
    case _ =>
      var fe := FilterEventOf(ev);
      if CF.Enabled(side.selection, names, fe) {
        var s1 := CF.Apply(side.selection, fe);
        CF.ApplyKeepsConsistent(side.selection, names, fe);
        SD.RepropsKeepsValid(SD.Combo(p, side.picker), PickerProps(s1, names));
      }
  }

  function SideRun(names: seq<string>, side: Side, evs: seq<SideEvent>): Side
    decreases |evs|
  {
    if evs == [] then side else SideRun(names, SideStep(names, side, evs[0]), evs[1..])
  }

  /**
   * Whatever the user does, each chosen filter has its ancestors chosen and is
   * one of the options offered, and an open API-name list highlights a valid result.
   */
  lemma {:induction false} EverySideStateValid(names: seq<string>, evs: seq<SideEvent>)
    ensures SideValid(names, SideRun(names, Start(names), evs))
    ensures CF.PrefixOrdered(SideRun(names, Start(names), evs).selection)
  {
    StartIsValid(names);
    RunKeepsValid(names, Start(names), evs);
    CF.ConsistentIsPrefixOrdered(SideRun(names, Start(names), evs).selection, names);
  }

  lemma {:induction false} RunKeepsValid(names: seq<string>, side: Side, evs: seq<SideEvent>)
    requires SideValid(names, side)
    ensures SideValid(names, SideRun(names, side, evs))
    decreases |evs|
  {
    if evs != [] {
      SideStepKeepsValid(names, side, evs[0]);
      RunKeepsValid(names, SideStep(names, side, evs[0]), evs[1..]);
    }
  }

  /**
   * Changing an enabled filter clears the API name. If a name was selected,
   * the selector's text is cleared with it; text typed without committing
   * a name stays as it was.
   */
  lemma FilterChangeClearsPicker(names: seq<string>, side: Side, ev: SideEvent)
    requires !ev.Picker? && CF.Enabled(side.selection, names, FilterEventOf(ev))
    requires forall n :: n in names ==> n != ""
    ensures SideStep(names, side, ev).selection.apiName == ""
    ensures var p := PickerProps(side.selection, names);
            SD.Selected(p.options, p.value).Some? ==> SideStep(names, side, ev).picker.inputValue == ""
    ensures var p := PickerProps(side.selection, names);
            SD.Selected(p.options, p.value).None? ==> SideStep(names, side, ev).picker.inputValue == side.picker.inputValue
  {
    var s1 := CF.Apply(side.selection, FilterEventOf(ev));
    var p1 := PickerProps(s1, names);
    assert forall o :: o in p1.options ==> o.value in CF.ApiNameOptions(s1, names);
    var k := SD.FindIndex(p1.options, "");
    assert SD.Selected(p1.options, p1.value) == None;
  }

  /* ---------- the page: two independent sides ---------- */

  datatype Which = Left | Right

  datatype Page = Page(left: Side, right: Side)

  function PageStep(names: seq<string>, page: Page, which: Which, ev: SideEvent): Page {
    match which
    case Left => page.(left := SideStep(names, page.left, ev))
    case Right => page.(right := SideStep(names, page.right, ev))
  }

  function PageStart(names: seq<string>): Page {
    Page(Start(names), Start(names))
  }

  /** The user's events on the whole page, each addressed to one side. */
  function PageRun(names: seq<string>, page: Page, evs: seq<(Which, SideEvent)>): Page
    decreases |evs|
  {
    if evs == [] then page else PageRun(names, PageStep(names, page, evs[0].0, evs[0].1), evs[1..])
  }

  /** The events addressed to one side, in the order they happened. */
  function EventsFor(which: Which, evs: seq<(Which, SideEvent)>): seq<SideEvent>
    decreases |evs|
  {
    if evs == [] then []
    else if evs[0].0 == which then [evs[0].1] + EventsFor(which, evs[1..])
    else EventsFor(which, evs[1..])
  }

  /**
   * The two sides are independent: after any interleaving of events, each side
   * is exactly what its own events alone would have made of it.
   */
  lemma {:induction false} SidesIndependent(names: seq<string>, page: Page, evs: seq<(Which, SideEvent)>)
    ensures PageRun(names, page, evs).left == SideRun(names, page.left, EventsFor(Left, evs))
    ensures PageRun(names, page, evs).right == SideRun(names, page.right, EventsFor(Right, evs))
    decreases |evs|
  {
    if evs != [] {
      var (which, ev) := evs[0];
      var page1 := PageStep(names, page, which, ev);
      SidesIndependent(names, page1, evs[1..]);
      var rest := EventsFor(which, evs[1..]);
      assert ([ev] + rest)[1..] == rest;
    }
  }

  /** Both sides of the page stay valid whatever the user does on either. */
  lemma EveryPageStateValid(names: seq<string>, evs: seq<(Which, SideEvent)>)
    ensures SideValid(names, PageRun(names, PageStart(names), evs).left)
    ensures SideValid(names, PageRun(names, PageStart(names), evs).right)
  {
    SidesIndependent(names, PageStart(names), evs);
    EverySideStateValid(names, EventsFor(Left, evs));
    EverySideStateValid(names, EventsFor(Right, evs));
  }
}

=== FILE: js_text.dfy ===
/**
 * The JavaScript string primitives the components rely on:
 * `String.prototype.trim`, `toLowerCase`, `includes`, and counting a character
 * (the `text.match(/\n/g)?.length ?? 0` idiom).
 */
module JsText {

  /** ECMAScript WhiteSpace and LineTerminator code points: what `trim` removes. */
  predicate IsTrimmable(c: char) {
    || c == '\t' || c == '\n' || c == '\U{B}' || c == '\U{C}' || c == '\r' || c == ' '
    || c == '\U{A0}' || c == '\U{1680}' || ('\U{2000}' <= c <= '\U{200A}')
    || c == '\U{2028}' || c == '\U{2029}' || c == '\U{202F}' || c == '\U{205F}'
    || c == '\U{3000}' || c == '\U{FEFF}'
  }

  predicate AllTrimmable(s: string) {
    forall i :: 0 <= i < |s| ==> IsTrimmable(s[i])
  }

  /** Drops leading whitespace. */
  function TrimStart(s: string): (r: string)
    ensures |r| <= |s|
  {
    if |s| > 0 && IsTrimmable(s[0]) then TrimStart(s[1..]) else s
  }

  /** Drops trailing whitespace. */
  function TrimEnd(s: string): (r: string)
    ensures |r| <= |s|
  {
    if |s| > 0 && IsTrimmable(s[|s| - 1]) then TrimEnd(s[..|s| - 1]) else s
  }

  /** `TrimStart` removes a whitespace prefix, and exactly all of it. */
  lemma {:induction false} TrimStartSpec(s: string)
    ensures var r := TrimStart(s);
            && r == s[|s| - |r|..]
            && AllTrimmable(s[..|s| - |r|])
            && (r == [] || !IsTrimmable(r[0]))
    decreases |s|
  {
    if |s| > 0 && IsTrimmable(s[0]) {
      var r := TrimStart(s[1..]);
      TrimStartSpec(s[1..]);
      assert s[..|s| - |r|] == [s[0]] + s[1..][..|s[1..]| - |r|];
    }
  }

  /** `TrimEnd` removes a whitespace suffix, and exactly all of it. */
  lemma {:induction false} TrimEndSpec(s: string)
    ensures var r := TrimEnd(s);
            && r == s[..|r|]
            && AllTrimmable(s[|r|..])
            && (r == [] || !IsTrimmable(r[|r| - 1]))
    decreases |s|
  {
    if |s| > 0 && IsTrimmable(s[|s| - 1]) {
      var r := TrimEnd(s[..|s| - 1]);
      TrimEndSpec(s[..|s| - 1]);
      assert s[|r|..] == s[..|s| - 1][|r|..] + [s[|s| - 1]];
    }
  }

  /** `s.trim()`. */
  function Trim(s: string): (r: string)
    ensures |r| <= |s|
  {
    TrimEnd(TrimStart(s))
  }

  /**
   * What `trim` promises: the input is the result framed by two runs of
   * whitespace, and the result neither starts nor ends with whitespace.
   */
  lemma TrimFrames(s: string)
    ensures var r := Trim(s);
            exists i, j :: 0 <= i <= j <= |s| && r == s[i..j] && AllTrimmable(s[..i]) && AllTrimmable(s[j..])
    ensures var r := Trim(s);
            r == [] || (!IsTrimmable(r[0]) && !IsTrimmable(r[|r| - 1]))
  {
    var a := TrimStart(s);
    var r := TrimEnd(a);
    TrimStartSpec(s);
    TrimEndSpec(a);
    var i := |s| - |a|;
    var j := i + |r|;
    assert r == s[i..j];
    assert s[j..] == a[|r|..];
  }

  /** `toLowerCase` restricted to ASCII letters. */
  function LowerChar(c: char): (r: char)
    ensures 'A' <= c <= 'Z' ==> r as int == c as int + 32
    ensures !('A' <= c <= 'Z') ==> r == c
    ensures !('A' <= r <= 'Z')
  {
    if 'A' <= c <= 'Z' then (c as int + 32) as char else c
  }

  function ToLower(s: string): (r: string)
    ensures |r| == |s|
  {
    seq(|s|, i requires 0 <= i < |s| => LowerChar(s[i]))
  }

  /** Lower-casing leaves no ASCII capital behind, so doing it twice changes nothing. */
  lemma ToLowerIdempotent(s: string)
    ensures forall i :: 0 <= i < |s| ==> !('A' <= ToLower(s)[i] <= 'Z')
    ensures ToLower(ToLower(s)) == ToLower(s)
  {
  }

  /** `needle` sits in `hay` starting at position `i`. */
  predicate OccursAt(hay: string, needle: string, i: int) {
    0 <= i && i + |needle| <= |hay| && hay[i..i + |needle|] == needle
  }

  /** `hay.includes(needle)`, scanning left to right. */
  function Includes(hay: string, needle: string): (b: bool)
    ensures needle == [] ==> b
    ensures b ==> |needle| <= |hay|
    ensures |needle| == |hay| ==> (b <==> hay == needle)
    decreases |hay|
  {
    if |needle| <= |hay| && hay[..|needle|] == needle then true
    else if |hay| == 0 then false
    else Includes(hay[1..], needle)
  }

  /** The scan agrees with the positional definition of "is a substring of". */
  lemma {:induction false} IncludesIff(hay: string, needle: string)
    ensures Includes(hay, needle) <==> exists i :: OccursAt(hay, needle, i)
    decreases |hay|
  {
    if |needle| <= |hay| && hay[..|needle|] == needle {
      assert OccursAt(hay, needle, 0);
    } else if |hay| == 0 {
      assert forall i :: !OccursAt(hay, needle, i);
    } else {
      forall i | OccursAt(hay, needle, i)
        ensures i > 0 && OccursAt(hay[1..], needle, i - 1)
      {
        assert hay[1..][i - 1..i - 1 + |needle|] == hay[i..i + |needle|];
      }
      forall i | OccursAt(hay[1..], needle, i)
        ensures OccursAt(hay, needle, i + 1)
      {
        assert hay[i + 1..i + 1 + |needle|] == hay[1..][i..i + |needle|];
      }
      IncludesIff(hay[1..], needle);
    }
  }

  /** Number of occurrences of `c` in `s`. */
  function Count(s: string, c: char): (n: nat)
    ensures n <= |s|
    ensures n == 0 <==> c !in s
  {
    if |s| == 0 then 0 else (if s[0] == c then 1 else 0) + Count(s[1..], c)
  }

  /** Counting distributes over concatenation. */
  lemma {:induction false} CountAppend(a: string, b: string, c: char)
    ensures Count(a + b, c) == Count(a, c) + Count(b, c)
    decreases |a|
  {
    if |a| == 0 {
      assert a + b == b;
    } else {
      assert (a + b)[1..] == a[1..] + b;
      CountAppend(a[1..], b, c);
    }
  }
}

=== FILE: line_numbered_textarea.dfy ===
/**
 * The text editor with a line-number gutter: the number of lines shown, the
 * gutter labels, and which text is displayed when the parent does or does
 * not control the value.
 */
module LineNumberedTextarea {
  import opened Wrappers
  import JsText

  /** `Math.max(1, newlineCount + 1)`: how many numbers the gutter shows. */
  function LineCount(text: string): (n: nat)
    ensures n >= 1
  {
    var counted := JsText.Count(text, '\n') + 1;
    if counted > 1 then counted else 1
  }

  /** The lines of `text`: the pieces between newline characters. */
  function SplitLines(text: string): (lines: seq<string>)
    ensures |lines| >= 1
    ensures forall i :: 0 <= i < |lines| ==> '\n' !in lines[i]
    decreases |text|
  {
    if text == [] then [""]
    else
      var rest := SplitLines(text[1..]);
      if text[0] == '\n' then [""] + rest
      else [[text[0]] + rest[0]] + rest[1..]
  }

  /** The lines glued back together with newline characters. */
  function JoinLines(lines: seq<string>): string
    requires |lines| >= 1
    decreases |lines|
  {
    if |lines| == 1 then lines[0] else lines[0] + "\n" + JoinLines(lines[1..])
  }

  /** Splitting and joining are inverse: nothing is lost or added. */
  lemma {:induction false} JoinSplit(text: string)
    ensures JoinLines(SplitLines(text)) == text
    decreases |text|
  {
    if text != [] {
      var rest := SplitLines(text[1..]);
      JoinSplit(text[1..]);
      if text[0] == '\n' {
        assert ([""] + rest)[1..] == rest;
      } else {
        var lines := [[text[0]] + rest[0]] + rest[1..];
        if |rest| == 1 {
          assert lines == [[text[0]] + rest[0]];
        } else {
          assert lines[1..] == rest[1..];
          assert JoinLines(rest) == rest[0] + "\n" + JoinLines(rest[1..]);
        }
      }
    }
  }

  /** A newline-free word in front of some text extends that text's first line. */
  lemma {:induction false} SplitAfterWord(w: string, rest: string)
    requires '\n' !in w
    ensures var r := SplitLines(rest);
            SplitLines(w + rest) == [w + r[0]] + r[1..]
    decreases |w|
  {
    var r := SplitLines(rest);
    if w == [] {
      assert w + rest == rest && w + r[0] == r[0];
      assert [r[0]] + r[1..] == r;
    } else {
      assert '\n' !in w[1..] by {
        forall k | 0 <= k < |w[1..]| ensures w[1..][k] != '\n' {
          assert w[1..][k] == w[k + 1];
        }
      }
      SplitAfterWord(w[1..], rest);
      assert (w + rest)[1..] == w[1..] + rest;
      assert (w + rest)[0] == w[0] && w[0] in w;
      assert [w[0]] + (w[1..] + r[0]) == w + r[0];
    }
  }

  lemma {:induction false} SplitJoin(lines: seq<string>)
    requires |lines| >= 1
    requires forall i :: 0 <= i < |lines| ==> '\n' !in lines[i]
    ensures SplitLines(JoinLines(lines)) == lines
    decreases |lines|
  {
    var w := lines[0];
    if |lines| == 1 {
      SplitAfterWord(w, "");
      assert w + "" == w;
    } else {
      var tail := lines[1..];
      assert forall i :: 0 <= i < |tail| ==> '\n' !in tail[i] by {
        forall i | 0 <= i < |tail| ensures tail[i] == lines[i + 1] { }
      }
      SplitJoin(tail);
      var after := "\n" + JoinLines(tail);
      assert after[1..] == JoinLines(tail);
      assert SplitLines(after) == [""] + tail;
      assert JoinLines(lines) == w + after;
      SplitAfterWord(w, after);
      assert w + "" == w;
      assert [w] + tail == lines;
    }
  }

  /** The gutter shows one number per line. */
  lemma {:induction false} LineCountCountsLines(text: string)
    ensures LineCount(text) == |SplitLines(text)|
    decreases |text|
  {
    if text != [] {
      LineCountCountsLines(text[1..]);
    }
  }

  /** Empty text still shows line 1. */
  lemma EmptyTextHasOneLine()
    ensures LineCount("") == 1
  {
  }

  /** Concatenation joins the last line of `a` with the first line of `b`. */
  lemma LineCountAppend(a: string, b: string)
    ensures LineCount(a + b) == LineCount(a) + LineCount(b) - 1
    ensures LineCount(a + "\n") == LineCount(a) + 1
    ensures '\n' !in b ==> LineCount(a + b) == LineCount(a)
  {
    JsText.CountAppend(a, b, '\n');
    JsText.CountAppend(a, "\n", '\n');
  }

  /** The gutter's labels for `n` lines: 1, 2, ..., n. */
  function Gutter(n: nat): (labels: seq<nat>)
    ensures |labels| == n
    ensures forall i :: 0 <= i < n ==> labels[i] == i + 1
  {
    if n == 0 then [] else Gutter(n - 1) + [n]
  }

  /** The gutter numbers the lines of the text in order, starting at 1 and ending at the last line. */
  lemma GutterNumbersLines(text: string)
    ensures var g := Gutter(LineCount(text));
            && |g| == |SplitLines(text)|
            && g[0] == 1 && g[|g| - 1] == |SplitLines(text)|
            && forall i :: 0 <= i < |g| - 1 ==> g[i + 1] == g[i] + 1
  {
    LineCountCountsLines(text);
  }

  /* ---------- controlled and uncontrolled text ---------- */

  /** `value` is the controlled prop (None when undefined); `inner` is the component's own copy. */
  datatype Editor = Editor(value: Option<string>, inner: string)

  predicate Controlled(e: Editor) {
    e.value.Some?
  }

  /** The text shown: the prop when controlled, the component's own copy otherwise. */
  function Displayed(e: Editor): string {
    match e.value
    case Some(v) => v
    case None => e.inner
  }

  /** The effect that copies a controlled value into the component's own copy. */
  function Resync(e: Editor): (r: Editor)
    ensures Displayed(r) == Displayed(e)
    ensures r.value == e.value
    ensures Controlled(e) ==> r.inner == Displayed(e)
    ensures !Controlled(e) ==> r == e
  {
    if Controlled(e) then e.(inner := e.value.value) else e
  }

  /** Controlled editors keep their own copy equal to the prop. */
  predicate InSync(e: Editor) {
    Controlled(e) ==> e.inner == e.value.value
  }

  /** First render (`defaultValue ?? ""`) followed by the sync effect. */
  function Mount(value: Option<string>, defaultValue: Option<string>): (e: Editor)
    ensures InSync(e)
    ensures Displayed(e) == value.GetOr(defaultValue.GetOr(""))
  {
    Resync(Editor(value, defaultValue.GetOr("")))
  }

  datatype Change = Change(editor: Editor, forwarded: string)

  /**
   * `handleChange`: the new text always goes to `onChange`; only an
   * uncontrolled editor takes it as its own.
   */
  function HandleChange(e: Editor, next: string): (r: Change)
    ensures r.forwarded == next
    ensures !Controlled(e) ==> Displayed(r.editor) == next
    ensures Controlled(e) ==> r.editor == e
    ensures InSync(e) ==> InSync(r.editor)
  {
    if Controlled(e) then Change(e, next) else Change(e.(inner := next), next)
  }

  /** The parent re-renders with a (possibly new) value prop; the sync effect follows. */
  function Rerender(e: Editor, value: Option<string>): (r: Editor)
    ensures InSync(r)
  {
    Resync(e.(value := value))
  }

  /**
   * A controlled editor whose parent echoes every forwarded text shows the
   * typed text, exactly as an uncontrolled one does.
   */
  lemma EchoingParentShowsTypedText(e: Editor, next: string)
    requires Controlled(e)
    ensures var c := HandleChange(e, next);
            && Displayed(Rerender(c.editor, Some(c.forwarded))) == next
            && Rerender(c.editor, Some(c.forwarded)).inner == next
  {
  }

  /** A controlled editor that stops being controlled keeps showing the last controlled text. */
  lemma ReleasingControlKeepsText(e: Editor)
    requires InSync(e)
    ensures Displayed(Rerender(e, None)) == Displayed(e)
  {
  }
}

=== FILE: option_tables.dfy ===
/**
 * The static option catalog of the filter bar: which environments each APIC
 * version offers and which catalogs each (version, environment) pair offers.
 * The empty string that the source uses for "nothing chosen" is a constructor
 * of its own in each enumeration.
 */
module OptionTables {

  datatype Version = NoVersion | V5 | V10 {
    predicate Chosen() { !NoVersion? }
  }

  datatype Environment = NoEnvironment | Uat | Staging | Prod {
    predicate Chosen() { !NoEnvironment? }
  }

  datatype Catalog = NoCatalog | Ubp | Core {
    predicate Chosen() { !NoCatalog? }
  }

  /** The versions the version selector lists. */
  const VersionOptions: seq<Version> := [V5, V10]

  const EnvironmentsByVersion: map<Version, seq<Environment>> :=
    map[V5 := [Uat, Staging, Prod], V10 := [Uat, Staging, Prod]]

  const CatalogsByEnvironment: map<Environment, seq<Catalog>> :=
    map[Uat := [Ubp, Core], Staging := [Ubp, Core], Prod := [Ubp, Core]]

  const CatalogsByVersionEnv: map<Version, map<Environment, seq<Catalog>>> :=
    map[V5 := CatalogsByEnvironment, V10 := CatalogsByEnvironment]

  /**
   * The tables are keyed by exactly the chosen values, list only chosen
   * values, and give every valid (version, environment) pair a non-empty
   * catalog list.
   */
  lemma TablesCoverEveryChoice()
    ensures forall v :: v in EnvironmentsByVersion <==> v.Chosen()
    ensures forall v :: v in CatalogsByVersionEnv <==> v.Chosen()
    ensures forall v :: v in VersionOptions <==> v.Chosen()
    ensures forall v, e :: v in EnvironmentsByVersion && e in EnvironmentsByVersion[v] <==> v.Chosen() && e.Chosen()
    ensures forall v, e :: v in CatalogsByVersionEnv && e in CatalogsByVersionEnv[v] <==> v.Chosen() && e.Chosen()
    ensures forall v, e, c :: v in CatalogsByVersionEnv && e in CatalogsByVersionEnv[v] && c in CatalogsByVersionEnv[v][e] <==> v.Chosen() && e.Chosen() && c.Chosen()
  {
    forall v: Version, e: Environment | v.Chosen() && e.Chosen()
      ensures v in CatalogsByVersionEnv && e in CatalogsByVersionEnv[v]
      ensures CatalogsByVersionEnv[v][e] == [Ubp, Core]
    {
      assert CatalogsByVersionEnv[v] == CatalogsByEnvironment;
    }
    forall v: Version, e: Environment, c: Catalog
      ensures v in CatalogsByVersionEnv && e in CatalogsByVersionEnv[v] && c in CatalogsByVersionEnv[v][e] <==> v.Chosen() && e.Chosen() && c.Chosen()
    {
      if v.Chosen() && e.Chosen() {
        assert CatalogsByVersionEnv[v][e] == [Ubp, Core];
      }
    }
  }
}

=== FILE: searchable_dropdown.dfy ===
/**
 * The searchable combo-box used for the API-name filter. The parent owns the
 * selected `value`; the component owns the typed text, whether the list is
 * open, the active (highlighted) result and whether an IME composition is in
 * progress. Events are pure transitions; what the component reports to its
 * parent (`onChange`, `onClear`) is returned as a list of effects.
 */
module SearchableDropdown {
  import opened Wrappers
  import JsText
  import WrapIndex

  datatype Opt = Opt(value: string, caption: string)  // caption: the option's `label`

  /** What the parent passes in. `filterFn` is the optional caller-supplied match predicate. */
  datatype Props = Props(value: string, options: seq<Opt>, disabled: bool, filterFn: Option<(Opt, string) -> bool>)

  /** The component's own state. */
  datatype State = State(inputValue: string, open: bool, activeIdx: int, composing: bool)

  datatype Key = ArrowDown | ArrowUp | Home | End | Enter | Tab | Escape | Backspace | OtherKey

  datatype Event =
    | KeyDown(key: Key)
    | Input(text: string)
    | Focus
    | Blur(toOption: bool)          // toOption: focus moves onto an option of the list
    | OutsidePointerDown
    | CompositionStart
    | CompositionEnd
    | HoverOption(idx: int)
    | ClickOption(idx: int)
    | ClickClear

  /** Calls the component makes on its parent: `onChange(value)` and `onClear()`. */
  datatype Effect = EmitChange(value: string) | NotifyClear

  datatype Reaction = Reaction(state: State, effects: seq<Effect>)

  /* ---------- the selected option ---------- */

  /** `options.find(o => o.value === value)`, as an index: the first option carrying `value`. */
  function FindIndex(options: seq<Opt>, value: string): (r: Option<nat>)
    ensures r.Some? ==> r.value < |options| && options[r.value].value == value
    ensures r.Some? ==> forall j :: 0 <= j < r.value ==> options[j].value != value
    ensures r.None? ==> forall j :: 0 <= j < |options| ==> options[j].value != value
  {
    if |options| == 0 then None
    else if options[0].value == value then Some(0)
    else
      match FindIndex(options[1..], value)
      case None => None
      case Some(k) => Some(k + 1)
  }

  function Selected(options: seq<Opt>, value: string): Option<Opt> {
    match FindIndex(options, value)
    case None => None
    case Some(k) => Some(options[k])
  }

  /** `selected?.caption ?? ""`. */
  function SelectedLabel(options: seq<Opt>, value: string): string {
    match Selected(options, value)
    case None => ""
    case Some(o) => o.caption
  }

  /** No two options carry the same value (the list renders them keyed by value). */
  predicate UniqueValues(options: seq<Opt>) {
    forall i, j :: 0 <= i < j < |options| ==> options[i].value != options[j].value
  }

  /** With unique values, an option is the one its own value selects. */
  lemma SelectedIsTheOption(options: seq<Opt>, o: Opt)
    requires UniqueValues(options) && o in options
    ensures Selected(options, o.value) == Some(o)
    ensures SelectedLabel(options, o.value) == o.caption
  {
    var m :| 0 <= m < |options| && options[m] == o;
    var k := FindIndex(options, o.value);
    assert k.Some?;
    assert options[k.value].value == options[m].value;
    assert k.value == m;
  }

  /* ---------- filtering ---------- */

  /** The search query: the typed text, trimmed and lower-cased. */
  function Query(input: string): string {
    JsText.ToLower(JsText.Trim(input))
  }

  /** The built-in match: the lower-cased label or value contains the query. */
  predicate DefaultMatch(o: Opt, q: string) {
    JsText.Includes(JsText.ToLower(o.caption), q) || JsText.Includes(JsText.ToLower(o.value), q)
  }

  predicate Matches(filterFn: Option<(Opt, string) -> bool>, o: Opt, q: string) {
    match filterFn
    case Some(f) => f(o, q)
    case None => DefaultMatch(o, q)
  }

  /** `a` is `b` with some elements left out, the rest in their original order. */
  predicate IsSubsequence(a: seq<Opt>, b: seq<Opt>)
    decreases |b|
  {
    if a == [] then true
    else if b == [] then false
    else if a[0] == b[0] then IsSubsequence(a[1..], b[1..])
    else IsSubsequence(a, b[1..])
  }

  function KeepMatching(options: seq<Opt>, filterFn: Option<(Opt, string) -> bool>, q: string): (r: seq<Opt>)
    ensures |r| <= |options|
    decreases |options|
  {
    if options == [] then []
    else
      var rest := KeepMatching(options[1..], filterFn, q);
      if Matches(filterFn, options[0], q) then [options[0]] + rest
      else rest
  }

  /**
   * The kept options are, in order, exactly the options that match, each as
   * many times as it occurs among the options.
   */
  lemma {:induction false} KeepMatchingMembers(options: seq<Opt>, filterFn: Option<(Opt, string) -> bool>, q: string)
    ensures var r := KeepMatching(options, filterFn, q);
            IsSubsequence(r, options) && forall o :: o in r <==> o in options && Matches(filterFn, o, q)
    ensures var r := KeepMatching(options, filterFn, q);
            forall o :: multiset(r)[o] == if Matches(filterFn, o, q) then multiset(options)[o] else 0
    decreases |options|
  {
    if options != [] {
      var rest := KeepMatching(options[1..], filterFn, q);
      KeepMatchingMembers(options[1..], filterFn, q);
      assert forall o :: o in options <==> o == options[0] || o in options[1..];
      assert options == [options[0]] + options[1..];
      assert multiset(options) == multiset{options[0]} + multiset(options[1..]);
      if Matches(filterFn, options[0], q) {
        assert ([options[0]] + rest)[1..] == rest;
        assert multiset([options[0]] + rest) == multiset{options[0]} + multiset(rest);
      }
    }
  }

  /**
   * The results listed for the typed text: every option when the query is
   * empty, otherwise the matching options in their original order.
   */
  function Filtered(p: Props, input: string): (r: seq<Opt>)
    ensures Query(input) == "" ==> r == p.options
    ensures |r| <= |p.options|
  {
    var q := Query(input);
    if q == "" then p.options else KeepMatching(p.options, p.filterFn, q)
  }

  /** A non-empty query keeps, in order, exactly the options that match it. */
  lemma FilteredMatches(p: Props, input: string)
    ensures Query(input) != "" ==> IsSubsequence(Filtered(p, input), p.options)
    ensures Query(input) != "" ==> forall o :: o in Filtered(p, input) <==> o in p.options && Matches(p.filterFn, o, Query(input))
    ensures Query(input) != "" ==>
              forall o :: multiset(Filtered(p, input))[o] == if Matches(p.filterFn, o, Query(input)) then multiset(p.options)[o] else 0
    ensures forall o :: o in Filtered(p, input) ==> o in p.options
  {
    if Query(input) != "" {
      KeepMatchingMembers(p.options, p.filterFn, Query(input));
    }
  }

  lemma EmptyWhenNoMembers(s: seq<Opt>)
    ensures (forall o :: o !in s) ==> s == []
  {
    if s != [] {
      assert s[0] in s;
    }
  }

  /** A query nothing matches lists no results; clearing the text lists every option again. */
  lemma NoMatchNoResults(p: Props, input: string)
    requires Query(input) != ""
    requires forall o :: o in p.options ==> !Matches(p.filterFn, o, Query(input))
    ensures Filtered(p, input) == []
    ensures Filtered(p, "") == p.options
  {
    FilteredMatches(p, input);
    EmptyWhenNoMembers(Filtered(p, input));
  }

  /** Whitespace around the typed text does not change the results. */
  lemma QueryIgnoresPadding(p: Props, input: string)
    ensures Filtered(p, JsText.Trim(input)) == Filtered(p, input)
  {
    TrimIdempotent(input);
  }

  lemma TrimIdempotent(s: string)
    ensures JsText.Trim(JsText.Trim(s)) == JsText.Trim(s)
  {
    var t := JsText.Trim(s);
    JsText.TrimFrames(s);
    if t != [] {
      assert JsText.TrimStart(t) == t;
      assert JsText.TrimEnd(t) == t;
    }
  }

  /* ---------- derived view state ---------- */

  function ResultCount(p: Props, st: State): nat {
    |Filtered(p, st.inputValue)|
  }

  /** The list popup is rendered. */
  predicate PopupShown(p: Props, st: State) {
    st.open && !p.disabled
  }

  /** The clear button is rendered: a value is selected and the text still shows its label. */
  predicate ClearVisible(p: Props, st: State) {
    !p.disabled && p.value != "" && st.inputValue == SelectedLabel(p.options, p.value)
  }

  /**
   * The clear button is shown exactly when an enabled selector holds a
   * non-empty value and the text mirrors the label of the option carrying it.
   */
  lemma ClearVisibleIffLabelShown(p: Props, st: State, o: Opt)
    requires UniqueValues(p.options) && o in p.options
    ensures p.value == o.value ==> (ClearVisible(p, st) <==> !p.disabled && o.value != "" && st.inputValue == o.caption)
  {
    if p.value == o.value {
      SelectedIsTheOption(p.options, o);
    }
  }

  /** A value no option carries (any value, over an empty list) shows the clear button only over empty text. */
  lemma ClearVisibleForUnknownValue(p: Props, st: State)
    requires forall x :: x in p.options ==> x.value != p.value
    ensures ClearVisible(p, st) <==> !p.disabled && p.value != "" && st.inputValue == ""
  {
  }

  /* ---------- the event handlers ---------- */

  /** Every value reported to the parent is the empty string or the value of one of `options`. */
  predicate ReportsOptionValues(options: seq<Opt>, effects: seq<Effect>) {
    forall e :: e in effects && e.EmitChange? ==> e.value == "" || exists o :: o in options && o.value == e.value
  }

  /**
   * `commitSelection`: choose an option, or clear with None. A parent that
   * stores what it is told ends up holding the option's value (or ""), the
   * text shows the option's label (or nothing), a clear is announced only when
   * clearing, the list closes, and nothing else about the state changes.
   */
  function CommitSelection(st: State, opt: Option<Opt>): (r: Reaction)
    ensures forall v :: FollowEmits(v, r.effects) == (if opt.Some? then opt.value.value else "")
    ensures r.state.inputValue == (if opt.Some? then opt.value.caption else "")
    ensures NotifyClear in r.effects <==> opt.None?
    ensures r.state == st.(inputValue := r.state.inputValue, open := false)
  {
    match opt
    case Some(o) => Reaction(st.(inputValue := o.caption, open := false), [EmitChange(o.value)])
    case None => Reaction(st.(inputValue := "", open := false), [EmitChange(""), NotifyClear])
  }

  lemma CommitReportsOption(st: State, opt: Option<Opt>, options: seq<Opt>)
    requires opt.Some? ==> opt.value in options
    ensures ReportsOptionValues(options, CommitSelection(st, opt).effects)
    ensures !CommitSelection(st, opt).state.open
  {
  }

  /** `onKeyDown`. Escape's trailing blur closes the list, which every Escape branch has already done. */
  function OnKeyDown(p: Props, st: State, key: Key): (r: Reaction)
    ensures p.disabled || st.composing ==> r == Reaction(st, [])
    ensures ReportsOptionValues(p.options, r.effects)
    ensures r.effects != [] ==> !r.state.open
  {
    if p.disabled || st.composing then Reaction(st, [])
    else
      var f := Filtered(p, st.inputValue);
      var n := |f|;
      match key
      case ArrowDown =>
        if !st.open then Reaction(st.(open := true), [])
        else if n == 0 then Reaction(st, [])
        else Reaction(st.(activeIdx := WrapIndex.Next(st.activeIdx, n)), [])
      case ArrowUp =>
        if !st.open then Reaction(st.(open := true), [])
        else if n == 0 then Reaction(st, [])
        else Reaction(st.(activeIdx := WrapIndex.Prev(st.activeIdx, n)), [])
      case Home =>
        if st.open && n > 0 then Reaction(st.(activeIdx := 0), []) else Reaction(st, [])
      case End =>
        if st.open && n > 0 then Reaction(st.(activeIdx := n - 1), []) else Reaction(st, [])
      case Enter =>
        if st.open && 0 <= st.activeIdx < n then
          FilteredMatches(p, st.inputValue);
          CommitReportsOption(st, Some(f[st.activeIdx]), p.options);
          CommitSelection(st, Some(f[st.activeIdx]))
        else Reaction(st, [])
      case Tab =>
        if st.open && 0 <= st.activeIdx < n then
          FilteredMatches(p, st.inputValue);
          CommitReportsOption(st, Some(f[st.activeIdx]), p.options);
          CommitSelection(st, Some(f[st.activeIdx]))
        else Reaction(st, [])
      case Escape =>
        if st.open then Reaction(st.(open := false), [])
        else if st.inputValue != "" then Reaction(st.(inputValue := ""), [EmitChange(""), NotifyClear])
        else Reaction(st, [])
      case Backspace =>
        if st.inputValue == "" && p.value != "" then CommitSelection(st, None) else Reaction(st, [])
      case OtherKey => Reaction(st, [])
  }

  /**
   * Every event the component handles. A disabled component reports nothing
   * to its parent and can at most close its list (its input takes no typing);
   * whatever it reports as the new value is the empty string or the value of
   * one of its options; and whenever it reports something the list ends up
   * closed.
   */
  function HandleEvent(p: Props, st: State, ev: Event): (r: Reaction)
    ensures p.disabled ==> r.effects == []
    ensures p.disabled ==> r.state == st.(open := r.state.open) && (r.state.open ==> st.open)
    ensures ReportsOptionValues(p.options, r.effects)
    ensures r.effects != [] ==> !r.state.open
  {
    var f := Filtered(p, st.inputValue);
    match ev
    case KeyDown(k) => OnKeyDown(p, st, k)
    case Input(t) => if p.disabled then Reaction(st, []) else Reaction(st.(inputValue := t, open := true), [])
    case Focus => if p.disabled then Reaction(st, []) else Reaction(st.(open := true), [])
    case Blur(toOption) => if toOption then Reaction(st, []) else Reaction(st.(open := false), [])
    case OutsidePointerDown => Reaction(st.(open := false), [])
    case CompositionStart => if p.disabled then Reaction(st, []) else Reaction(st.(composing := true), [])
    case CompositionEnd => if p.disabled then Reaction(st, []) else Reaction(st.(composing := false), [])
    case HoverOption(i) =>
      if PopupShown(p, st) && 0 <= i < |f| then Reaction(st.(activeIdx := i), []) else Reaction(st, [])
    case ClickOption(i) =>
      if PopupShown(p, st) && 0 <= i < |f| then
        FilteredMatches(p, st.inputValue);
        CommitReportsOption(st, Some(f[i]), p.options);
        CommitSelection(st, Some(f[i]))
      else Reaction(st, [])
    case ClickClear =>
      if ClearVisible(p, st) then CommitSelection(st, None) else Reaction(st, [])
  }

  /* ---------- effects after a render ---------- */

  /** A list that opens, or whose result count changes while open, highlights its first result (or none). */
  function StartIdx(n: nat): int {
    if n > 0 then 0 else -1
  }

  /**
   * The index-reset effect: it touches only the highlight, leaves a closed list
   * alone, a list that has just opened or whose result count changed ends up
   * with its first result highlighted (or none), and an open list whose open
   * flag and result count are both unchanged keeps its highlight, because the
   * effect does not run.
   */
  function Settle(p0: Props, s0: State, p1: Props, s1: State): (r: State)
    ensures r == s1.(activeIdx := r.activeIdx)
    ensures !(s1.open && (!s0.open || ResultCount(p0, s0) != ResultCount(p1, s1))) ==> r == s1
    ensures s1.open && (!s0.open || ResultCount(p0, s0) != ResultCount(p1, s1)) ==> r.activeIdx == StartIdx(ResultCount(p1, s1))
    ensures s1.open && (!s0.open || ResultCount(p0, s0) != ResultCount(p1, s1)) ==> ActiveInRange(p1, r)
  {
    if s1.open && (!s0.open || ResultCount(p0, s0) != ResultCount(p1, s1)) then
      s1.(activeIdx := StartIdx(ResultCount(p1, s1)))
    else s1
  }

  /**
   * The label-sync effect: it touches only the text, and only when the selected
   * option changed, in which case the text becomes the new option's label (or
   * nothing when no option is selected).
   */
  function Sync(p0: Props, p1: Props, s: State): (r: State)
    ensures r == s.(inputValue := r.inputValue)
    ensures Selected(p0.options, p0.value) == Selected(p1.options, p1.value) ==> r == s
    ensures Selected(p0.options, p0.value) != Selected(p1.options, p1.value) ==>
              r.inputValue == (match Selected(p1.options, p1.value) case Some(o) => o.caption case None => "")
  {
    if Selected(p0.options, p0.value) != Selected(p1.options, p1.value) then
      s.(inputValue := SelectedLabel(p1.options, p1.value))
    else s
  }

  /**
   * Render with the new props and state, run the two effects, and render once
   * more. Both effects of one commit read the values of that render, so running
   * the index reset before the label sync (rather than in declaration order)
   * gives the same state; the second render then lets the reset see a result
   * count changed by the sync.
   */
  function Rerender(p0: Props, s0: State, p1: Props, s1: State): State {
    var s2 := Settle(p0, s0, p1, s1);
    var s3 := Sync(p0, p1, s2);
    Settle(p1, s2, p1, s3)
  }

  /** A parent that stores whatever it is told: the last reported value wins. */
  function FollowEmits(value: string, effects: seq<Effect>): string
    decreases |effects|
  {
    if effects == [] then value
    else FollowEmits(if effects[0].EmitChange? then effects[0].value else value, effects[1..])
  }

  /** The component together with the props its parent currently passes. */
  datatype Combo = Combo(props: Props, state: State)

  /** First render: text shows the selected option's label, list closed, nothing highlighted. */
  function Mount(p: Props): Combo {
    Combo(p, State(SelectedLabel(p.options, p.value), false, -1, false))
  }

  /** One user event, with a parent that stores every reported value. */
  function Step(c: Combo, ev: Event): Combo {
    var r := HandleEvent(c.props, c.state, ev);
    var p1 := c.props.(value := FollowEmits(c.props.value, r.effects));
    Combo(p1, Rerender(c.props, c.state, p1, r.state))
  }

  /** The parent re-renders the component with new props. */
  function Reprops(c: Combo, p1: Props): Combo {
    Combo(p1, Rerender(c.props, c.state, p1, c.state))
  }

  function Run(c: Combo, evs: seq<Event>): Combo
    decreases |evs|
  {
    if evs == [] then c else Run(Step(c, evs[0]), evs[1..])
  }

  /* ---------- the active-index invariant ---------- */

  /** While the list is open, the highlight is on a result, or at -1 exactly when there are none. */
  predicate ActiveInRange(p: Props, st: State) {
    st.open ==> (if ResultCount(p, st) == 0 then st.activeIdx == -1 else 0 <= st.activeIdx < ResultCount(p, st))
  }

  predicate Valid(c: Combo) {
    ActiveInRange(c.props, c.state)
  }

  lemma KeyKeepsIndexValid(p: Props, st: State, key: Key)
    requires ActiveInRange(p, st)
    ensures var s1 := OnKeyDown(p, st, key).state;
            s1.open && st.open ==> s1.inputValue == st.inputValue && ActiveInRange(p, s1)
  {
    if !p.disabled && !st.composing && st.open {
      var n := ResultCount(p, st);
      match key
      case ArrowDown =>
      case ArrowUp =>
      case _ =>
    }
  }

  /** If the list stays open over the same number of results, a handler keeps the highlight valid. */
  lemma HandleKeepsIndexValid(p: Props, st: State, ev: Event)
    requires ActiveInRange(p, st)
    ensures var s1 := HandleEvent(p, st, ev).state;
            s1.open && st.open && ResultCount(p, s1) == ResultCount(p, st) ==> ActiveInRange(p, s1)
  {
    match ev
    case KeyDown(k) => KeyKeepsIndexValid(p, st, k);
    case _ =>
  }

  lemma RerenderRestoresIndex(p0: Props, s0: State, p1: Props, s1: State)
    requires p1.options == p0.options && p1.filterFn == p0.filterFn
    requires s1.open && s0.open && ResultCount(p1, s1) == ResultCount(p0, s0) ==> ActiveInRange(p1, s1)
    ensures ActiveInRange(p1, Rerender(p0, s0, p1, s1))
  {
  }

  lemma RerenderAfterNewProps(p0: Props, s0: State, p1: Props)
    requires ActiveInRange(p0, s0)
    requires s0.open && ResultCount(p1, s0) == ResultCount(p0, s0) ==> ActiveInRange(p1, s0)
    ensures ActiveInRange(p1, Rerender(p0, s0, p1, s0))
  {
  }

  /** The first render is valid, and every event and every new set of props keeps it valid. */
  lemma MountIsValid(p: Props)
    ensures Valid(Mount(p))
    ensures !Mount(p).state.open
  {
  }

  lemma StepKeepsValid(c: Combo, ev: Event)
    requires Valid(c)
    ensures Valid(Step(c, ev))
  {
    HandleKeepsIndexValid(c.props, c.state, ev);
    var r := HandleEvent(c.props, c.state, ev);
    var p1 := c.props.(value := FollowEmits(c.props.value, r.effects));
    RerenderRestoresIndex(c.props, c.state, p1, r.state);
  }

  lemma RepropsKeepsValid(c: Combo, p1: Props)
    requires Valid(c)
    ensures Valid(Reprops(c, p1))
  {
    RerenderAfterNewProps(c.props, c.state, p1);
  }

  lemma {:induction false} RunKeepsValid(c: Combo, evs: seq<Event>)
    requires Valid(c)
    ensures Valid(Run(c, evs))
    decreases |evs|
  {
    if evs != [] {
      StepKeepsValid(c, evs[0]);
      RunKeepsValid(Step(c, evs[0]), evs[1..]);
    }
  }

  /* ---------- behaviour of each interaction ---------- */

  /** An event the handler ignores leaves the whole component as it was. */
  lemma QuietStep(c: Combo, ev: Event)
    requires HandleEvent(c.props, c.state, ev) == Reaction(c.state, [])
    ensures Step(c, ev) == c
  {
  }

  /** An event that only moves the highlight of an open list leaves the rest of the component as it was. */
  lemma HighlightStep(c: Combo, ev: Event, i: int)
    requires c.state.open
    requires HandleEvent(c.props, c.state, ev) == Reaction(c.state.(activeIdx := i), [])
    ensures Step(c, ev) == Combo(c.props, c.state.(activeIdx := i))
  {
    var s1 := c.state.(activeIdx := i);
    assert ResultCount(c.props, s1) == ResultCount(c.props, c.state);
    assert Settle(c.props, c.state, c.props, s1) == s1;
  }

  /** While disabled or mid-composition, no key has any effect. */
  lemma KeysInertWhileDisabledOrComposing(c: Combo, k: Key)
    requires c.props.disabled || c.state.composing
    ensures Step(c, KeyDown(k)) == c
  {
    QuietStep(c, KeyDown(k));
  }

  /**
   * A disabled input takes no typing. In an enabled one, typing shows the
   * typed text, opens the list and reports nothing; a list that was closed, or
   * whose result count changed, highlights its first result.
   */
  lemma TypingOpens(c: Combo, t: string)
    ensures c.props.disabled ==> Step(c, Input(t)) == c
    ensures var c1 := Step(c, Input(t));
            var n := |Filtered(c.props, t)|;
            !c.props.disabled ==>
            && c1.props == c.props
            && c1.state.inputValue == t && c1.state.open
            && (!c.state.open || ResultCount(c.props, c.state) != n ==> c1.state.activeIdx == StartIdx(n))
            && (c.state.open && ResultCount(c.props, c.state) == n ==> c1.state.activeIdx == c.state.activeIdx)
  {
    if c.props.disabled {
      QuietStep(c, Input(t));
    }
  }

  /** Text that no longer shows the selected option's label hides the clear button. */
  lemma TypingAwayHidesClear(c: Combo, t: string)
    requires t != SelectedLabel(c.props.options, c.props.value)
    ensures !ClearVisible(Step(c, Input(t)).props, Step(c, Input(t)).state)
  {
  }

  /** On a closed list the arrow keys only open it; the effect then highlights the first result. */
  lemma ArrowOpensClosedList(c: Combo, k: Key)
    requires k == ArrowDown || k == ArrowUp
    requires !c.props.disabled && !c.state.composing && !c.state.open
    ensures HandleEvent(c.props, c.state, KeyDown(k)) == Reaction(c.state.(open := true), [])
    ensures Step(c, KeyDown(k)) == Combo(c.props, c.state.(open := true, activeIdx := StartIdx(ResultCount(c.props, c.state))))
  {
  }

  /**
   * On an open list with `n` results the arrow keys move the highlight one
   * place, wrapping around at either end, and change nothing else.
   */
  lemma ArrowMovesHighlight(c: Combo)
    requires !c.props.disabled && !c.state.composing && c.state.open && ResultCount(c.props, c.state) > 0
    ensures var n := ResultCount(c.props, c.state);
            Step(c, KeyDown(ArrowDown)) == Combo(c.props, c.state.(activeIdx := WrapIndex.Next(c.state.activeIdx, n)))
    ensures var n := ResultCount(c.props, c.state);
            Step(c, KeyDown(ArrowUp)) == Combo(c.props, c.state.(activeIdx := WrapIndex.Prev(c.state.activeIdx, n)))
    ensures Valid(c) ==> Valid(Step(c, KeyDown(ArrowDown))) && Valid(Step(c, KeyDown(ArrowUp)))
  {
    var n := ResultCount(c.props, c.state);
    HighlightStep(c, KeyDown(ArrowDown), WrapIndex.Next(c.state.activeIdx, n));
    HighlightStep(c, KeyDown(ArrowUp), WrapIndex.Prev(c.state.activeIdx, n));
  }

  /** On an open list with `n` results, ArrowUp right after ArrowDown (and the reverse) restores the component. */
  lemma ArrowsUndoEachOther(c: Combo)
    requires Valid(c) && !c.props.disabled && !c.state.composing && c.state.open && ResultCount(c.props, c.state) > 0
    ensures Step(Step(c, KeyDown(ArrowDown)), KeyDown(ArrowUp)) == c
    ensures Step(Step(c, KeyDown(ArrowUp)), KeyDown(ArrowDown)) == c
  {
    var n := ResultCount(c.props, c.state);
    ArrowMovesHighlight(c);
    WrapIndex.NextPrevInverse(c.state.activeIdx, n);
    ArrowMovesHighlight(Step(c, KeyDown(ArrowDown)));
    ArrowMovesHighlight(Step(c, KeyDown(ArrowUp)));
  }

  function Repeat(ev: Event, k: nat): (r: seq<Event>)
    ensures |r| == k && forall i :: 0 <= i < k ==> r[i] == ev
  {
    seq(k, _ => ev)
  }

  /** An open list with results whose highlight is on a result: the arrow keys move it. */
  predicate Navigable(c: Combo) {
    && !c.props.disabled && !c.state.composing && c.state.open
    && 0 <= c.state.activeIdx < ResultCount(c.props, c.state)
  }

  function WithHighlight(c: Combo, i: int): Combo {
    Combo(c.props, c.state.(activeIdx := i))
  }

  lemma ArrowPressUnfolds(c: Combo, key: Key, k: nat)
    requires Navigable(c) && k > 0 && (key == ArrowDown || key == ArrowUp)
    ensures var n := ResultCount(c.props, c.state);
            var i := if key == ArrowDown then WrapIndex.Next(c.state.activeIdx, n) else WrapIndex.Prev(c.state.activeIdx, n);
            && Run(c, Repeat(KeyDown(key), k)) == Run(WithHighlight(c, i), Repeat(KeyDown(key), k - 1))
            && Navigable(WithHighlight(c, i))
            && ResultCount(c.props, c.state) == ResultCount(WithHighlight(c, i).props, WithHighlight(c, i).state)
  {
    var evs := Repeat(KeyDown(key), k);
    assert evs[1..] == Repeat(KeyDown(key), k - 1);
    ArrowMovesHighlight(c);
  }

  lemma {:induction false} ArrowDownPresses(c: Combo, k: nat)
    requires Navigable(c)
    ensures Run(c, Repeat(KeyDown(ArrowDown), k)) == WithHighlight(c, WrapIndex.NextN(c.state.activeIdx, ResultCount(c.props, c.state), k))
    decreases k
  {
    if k > 0 {
      var n := ResultCount(c.props, c.state);
      var j := WrapIndex.Next(c.state.activeIdx, n);
      ArrowPressUnfolds(c, ArrowDown, k);
      ArrowDownPresses(WithHighlight(c, j), k - 1);
      WrapIndex.NextNFirst(c.state.activeIdx, n, k);
    }
  }

  lemma {:induction false} ArrowUpPresses(c: Combo, k: nat)
    requires Navigable(c)
    ensures Run(c, Repeat(KeyDown(ArrowUp), k)) == WithHighlight(c, WrapIndex.PrevN(c.state.activeIdx, ResultCount(c.props, c.state), k))
    decreases k
  {
    if k > 0 {
      var n := ResultCount(c.props, c.state);
      var j := WrapIndex.Prev(c.state.activeIdx, n);
      ArrowPressUnfolds(c, ArrowUp, k);
      ArrowUpPresses(WithHighlight(c, j), k - 1);
      WrapIndex.PrevNFirst(c.state.activeIdx, n, k);
    }
  }

  /** On an open list with `n` results, `n` presses of either arrow key bring the component back to where it was. */
  lemma ArrowCycle(c: Combo)
    requires Valid(c) && !c.props.disabled && !c.state.composing && c.state.open && ResultCount(c.props, c.state) > 0
    ensures Run(c, Repeat(KeyDown(ArrowDown), ResultCount(c.props, c.state))) == c
    ensures Run(c, Repeat(KeyDown(ArrowUp), ResultCount(c.props, c.state))) == c
  {
    var n := ResultCount(c.props, c.state);
    ArrowDownPresses(c, n);
    ArrowUpPresses(c, n);
    WrapIndex.NextFullCycle(c.state.activeIdx, n);
    WrapIndex.PrevFullCycle(c.state.activeIdx, n);
  }

  /** Home and End jump to the first and last result of an open, non-empty list, and otherwise do nothing. */
  lemma HomeEndJump(c: Combo)
    requires !c.props.disabled && !c.state.composing
    ensures var n := ResultCount(c.props, c.state);
            c.state.open && n > 0 ==>
              && Step(c, KeyDown(Home)) == Combo(c.props, c.state.(activeIdx := 0))
              && Step(c, KeyDown(End)) == Combo(c.props, c.state.(activeIdx := n - 1))
    ensures !(c.state.open && ResultCount(c.props, c.state) > 0) ==>
              Step(c, KeyDown(Home)) == c && Step(c, KeyDown(End)) == c
  {
    var n := ResultCount(c.props, c.state);
    if c.state.open && n > 0 {
      HighlightStep(c, KeyDown(Home), 0);
      HighlightStep(c, KeyDown(End), n - 1);
    } else {
      QuietStep(c, KeyDown(Home));
      QuietStep(c, KeyDown(End));
    }
  }

  /**
   * Enter and Tab on an open list with a highlighted result report its value,
   * show its label and close the list; otherwise they do nothing.
   */
  lemma EnterTabCommit(c: Combo, k: Key)
    requires k == Enter || k == Tab
    requires !c.props.disabled && !c.state.composing
    ensures var f := Filtered(c.props, c.state.inputValue);
            var i := c.state.activeIdx;
            c.state.open && 0 <= i < |f| ==>
              HandleEvent(c.props, c.state, KeyDown(k))
                == Reaction(c.state.(inputValue := f[i].caption, open := false), [EmitChange(f[i].value)])
    ensures !(c.state.open && 0 <= c.state.activeIdx < ResultCount(c.props, c.state)) ==> Step(c, KeyDown(k)) == c
  {
    if !(c.state.open && 0 <= c.state.activeIdx < ResultCount(c.props, c.state)) {
      QuietStep(c, KeyDown(k));
    }
  }

  /**
   * Once the parent stores the committed value, that option is the selected
   * one, the text shows its label and, when the options carry distinct values,
   * the clear button shows exactly when the value is non-empty.
   */
  lemma CommitSelectsOption(c: Combo, k: Key)
    requires k == Enter || k == Tab
    requires !c.props.disabled && !c.state.composing
    requires c.state.open && 0 <= c.state.activeIdx < ResultCount(c.props, c.state)
    requires UniqueValues(c.props.options)
    ensures var o := Filtered(c.props, c.state.inputValue)[c.state.activeIdx];
            var c1 := Step(c, KeyDown(k));
            && c1.props == c.props.(value := o.value)
            && Selected(c1.props.options, c1.props.value) == Some(o)
            && c1.state.inputValue == o.caption
            && !c1.state.open
            && (ClearVisible(c1.props, c1.state) <==> o.value != "")
  {
    var o := Filtered(c.props, c.state.inputValue)[c.state.activeIdx];
    EnterTabCommit(c, k);
    FilteredMatches(c.props, c.state.inputValue);
    assert o in c.props.options;
    SelectedIsTheOption(c.props.options, o);
    var s1 := c.state.(inputValue := o.caption, open := false);
    var p1 := c.props.(value := o.value);
    assert FollowEmits(c.props.value, [EmitChange(o.value)]) == o.value;
    assert Step(c, KeyDown(k)) == Combo(p1, Rerender(c.props, c.state, p1, s1));
    assert Settle(c.props, c.state, p1, s1) == s1;
    assert Sync(c.props, p1, s1).inputValue == o.caption;
  }

  /**
   * Escape closes an open list and keeps text and value; on a closed list it
   * clears non-empty text and reports the empty value and a clear; on a closed
   * list with no text it does nothing.
   */
  lemma EscapeBehaviour(c: Combo)
    requires !c.props.disabled && !c.state.composing
    ensures c.state.open ==> Step(c, KeyDown(Escape)) == Combo(c.props, c.state.(open := false))
    ensures !c.state.open && c.state.inputValue != "" ==>
              && HandleEvent(c.props, c.state, KeyDown(Escape)) == Reaction(c.state.(inputValue := ""), [EmitChange(""), NotifyClear])
              && Step(c, KeyDown(Escape)).props == c.props.(value := "")
    ensures !c.state.open && c.state.inputValue == "" ==> Step(c, KeyDown(Escape)) == c
  {
    if !c.state.open && c.state.inputValue == "" {
      QuietStep(c, KeyDown(Escape));
    }
  }

  /**
   * Backspace on empty text with a value selected clears the selection: it
   * reports the empty value and a clear, and closes the list. Otherwise it does nothing.
   */
  lemma BackspaceClears(c: Combo)
    requires !c.props.disabled && !c.state.composing
    ensures c.state.inputValue == "" && c.props.value != "" ==>
              && HandleEvent(c.props, c.state, KeyDown(Backspace)) == Reaction(c.state.(open := false), [EmitChange(""), NotifyClear])
              && Step(c, KeyDown(Backspace)).props == c.props.(value := "")
              && !ClearVisible(Step(c, KeyDown(Backspace)).props, Step(c, KeyDown(Backspace)).state)
    ensures !(c.state.inputValue == "" && c.props.value != "") ==> Step(c, KeyDown(Backspace)) == c
  {
    if !(c.state.inputValue == "" && c.props.value != "") {
      QuietStep(c, KeyDown(Backspace));
    }
  }

  /** The clear button clears the selection and the text and closes the list; when hidden, clicking does nothing. */
  lemma ClearButtonClears(c: Combo)
    ensures ClearVisible(c.props, c.state) ==>
              && HandleEvent(c.props, c.state, ClickClear) == Reaction(c.state.(inputValue := "", open := false), [EmitChange(""), NotifyClear])
              && Step(c, ClickClear).props == c.props.(value := "")
              && !ClearVisible(Step(c, ClickClear).props, Step(c, ClickClear).state)
    ensures !ClearVisible(c.props, c.state) ==> Step(c, ClickClear) == c
  {
    if !ClearVisible(c.props, c.state) {
      QuietStep(c, ClickClear);
    }
  }

  /** On first render the clear button shows exactly when the control is enabled and a value is set. */
  lemma MountShowsClearIffSelected(p: Props)
    ensures ClearVisible(p, Mount(p).state) <==> !p.disabled && p.value != ""
  {
  }

  /** Focus opens an enabled list; a disabled one stays as it was. */
  lemma FocusOpens(c: Combo)
    ensures !c.props.disabled ==> Step(c, Focus).state.open && Step(c, Focus).props == c.props
    ensures !c.props.disabled && !c.state.open ==> Step(c, Focus).state.activeIdx == StartIdx(ResultCount(c.props, c.state))
    ensures c.props.disabled ==> Step(c, Focus) == c
  {
    if c.props.disabled {
      QuietStep(c, Focus);
    }
  }
}

=== FILE: wrap_index.dfy ===
/**
 * Circular movement of the combo-box's active index over a list of `n`
 * results, written with JavaScript's truncating remainder.
 */
module WrapIndex {

  /** JavaScript's `a % n` for a positive divisor. */
  function JsRem(a: int, n: int): (r: int)
    requires n > 0
    ensures -n < r < n
    ensures a >= 0 ==> r == a % n
    ensures a <= 0 ==> r <= 0
  {
    if a >= 0 then a % n else -((-a) % n)
  }

  /** The remainder takes the sign of the dividend: negating the dividend negates the result. */
  lemma JsRemOdd(a: int, n: int)
    requires n > 0
    ensures JsRem(-a, n) == -JsRem(a, n)
  {
  }

  /** ArrowDown: `(i + 1) % n` moves one place forward, wrapping from the last item to the first. */
  function Next(i: int, n: int): (r: int)
    requires n > 0
    ensures -1 <= i < n ==> r == (if i == n - 1 then 0 else i + 1)
    ensures -1 <= i < n ==> 0 <= r < n
  {
    JsRem(i + 1, n)
  }

  /** ArrowUp: `(i - 1 + n) % n` moves one place back, wrapping from the first item to the last. */
  function Prev(i: int, n: int): (r: int)
    requires n > 0
    ensures 0 <= i < n ==> r == (if i == 0 then n - 1 else i - 1)
    ensures -1 <= i < n ==> 0 <= r < n
  {
    JsRem(i - 1 + n, n)
  }

  /** ArrowUp undoes ArrowDown and vice versa. */
  lemma NextPrevInverse(i: int, n: int)
    requires 0 <= i < n
    ensures Prev(Next(i, n), n) == i
    ensures Next(Prev(i, n), n) == i
  {
  }

  /** `k` presses of ArrowDown. */
  function NextN(i: int, n: int, k: nat): int
    requires n > 0
  {
    if k == 0 then i else Next(NextN(i, n, k - 1), n)
  }

  /** `k` presses of ArrowUp. */
  function PrevN(i: int, n: int, k: nat): int
    requires n > 0
  {
    if k == 0 then i else Prev(PrevN(i, n, k - 1), n)
  }

  lemma {:induction false} NextNCompose(i: int, n: int, a: nat, b: nat)
    requires n > 0
    ensures NextN(i, n, a + b) == NextN(NextN(i, n, a), n, b)
  {
    if b > 0 {
      NextNCompose(i, n, a, b - 1);
    }
  }

  lemma {:induction false} PrevNCompose(i: int, n: int, a: nat, b: nat)
    requires n > 0
    ensures PrevN(i, n, a + b) == PrevN(PrevN(i, n, a), n, b)
  {
    if b > 0 {
      PrevNCompose(i, n, a, b - 1);
    }
  }

  /** `k` presses of ArrowDown are one press followed by `k - 1` more. */
  lemma NextNFirst(i: int, n: int, k: nat)
    requires n > 0 && k > 0
    ensures NextN(i, n, k) == NextN(Next(i, n), n, k - 1)
  {
    NextNCompose(i, n, 1, k - 1);
  }

  /** `k` presses of ArrowUp are one press followed by `k - 1` more. */
  lemma PrevNFirst(i: int, n: int, k: nat)
    requires n > 0 && k > 0
    ensures PrevN(i, n, k) == PrevN(Prev(i, n), n, k - 1)
  {
    PrevNCompose(i, n, 1, k - 1);
  }

  /** Before reaching the end, `k` presses of ArrowDown move exactly `k` places. */
  lemma {:induction false} NextNClimbs(i: int, n: int, k: nat)
    requires 0 <= i && i + k < n
    ensures NextN(i, n, k) == i + k
  {
    if k > 0 {
      NextNClimbs(i, n, k - 1);
    }
  }

  /** Before reaching the start, `k` presses of ArrowUp move exactly `k` places back. */
  lemma {:induction false} PrevNDescends(i: int, n: int, k: nat)
    requires k <= i < n
    ensures PrevN(i, n, k) == i - k
  {
    if k > 0 {
      PrevNDescends(i, n, k - 1);
    }
  }

  /** From a valid index, `n` presses of ArrowDown come back to where they started. */
  lemma NextFullCycle(i: int, n: int)
    requires 0 <= i < n
    ensures NextN(i, n, n) == i
  {
    var up := n - 1 - i;
    NextNClimbs(i, n, up);
    assert NextN(i, n, up) == n - 1;
    NextNCompose(i, n, up, i + 1);
    assert up + (i + 1) == n;
    assert NextN(i, n, n) == NextN(n - 1, n, i + 1);
    NextNCompose(n - 1, n, 1, i);
    assert NextN(n - 1, n, 0) == n - 1;
    assert Next(n - 1, n) == 0;
    assert NextN(n - 1, n, 1) == 0;
    NextNClimbs(0, n, i);
    assert NextN(0, n, i) == i;
  }

  /** From a valid index, `n` presses of ArrowUp come back to where they started. */
  lemma PrevFullCycle(i: int, n: int)
    requires 0 <= i < n
    ensures PrevN(i, n, n) == i
  {
    PrevNDescends(i, n, i);
    PrevNCompose(i, n, i, n - i);
    assert PrevN(i, n, n) == PrevN(0, n, n - i);
    PrevNCompose(0, n, 1, n - i - 1);
    assert PrevN(0, n, 1) == Prev(0, n) == n - 1;
    PrevNDescends(n - 1, n, n - i - 1);
  }
}

=== FILE: wrappers.dfy ===
/** Optional values: the model's reading of JavaScript's `undefined` / `null`. */
module Wrappers {

  datatype Option<+T> = None | Some(value: T) {

    /** Returns the value held in Some, or the default when None (JavaScript's `??`). */
    function GetOr(default: T): T {
      match this
      case Some(v) => v
      case None => default
    }
  }
}
